=== FILE: README.md ===
# Dashboard builder model

A Dafny model of the pure core of `scripts/build_dashboard.py`. The script reads one HTML
update fragment per repository and builds a status dashboard from them. The model covers
these parts of it:

- **Text primitives** (`text.dfy`, `lines.dfy`). Python's `str.strip()` uses the exact
  `str.isspace` character set. `str.splitlines()` uses its own set of line boundaries, and
  `\r\n` counts as one boundary. `text.dfy` also has `str.replace(p, "")` and `"\n".join`.
- **`_strip_tags`** (`tags.dfy`). This is `re.sub(r"<[^>]+>", "", v).strip()`, modelled as a
  left-to-right scanner. It is proved to leave no tag behind, even where deleting one tag
  joins its neighbours into something tag-like. It is also proved idempotent.
- **The fixed regular expressions** (`patterns.dfy`).
  - The patterns are: the section span, the `<h4>` heading, the section tag with
    `data-repo`/`data-agent`, and the article with `data-status`/`data-time` and its body.
  - Each is an explicit scanner with a declarative description of a match beside it.
  - Each scanner is proved to return the match Python's `re.search` returns: the leftmost
    start, with every greedy `[^>]*` tried longest first and every lazy `.*?` shortest first.
  - The attribute patterns have two greedy `[^>]*` that back off one character at a time.
    The scanner reproduces that order. Among the matches at one start, it returns the one
    with the rightmost first attribute, then the rightmost second attribute.
- **`badge_label`** (`badge.dfy`). This is the one- or two-letter badge of the navigation
  rail.
- **`_extract_section`, `_parse_iso` and the field and default logic of `_parse_update_file`**
  (`update.dfy`).
  - The library calls `datetime.fromisoformat`, `strftime` and `html.unescape` are fields of
    a `Library` value.
  - A parsed time is a `DateTime`: an `Instant`, a natural number counted from `datetime.min`
    (which is 0), together with its UTC offset, if any. `strftime` sees both; the sort sees
    only the instant.
  - A `datetime` object is always true, so `if parsed_time:` (line 73) and
    `parsed_time or datetime.min` (line 86) only test whether parsing succeeded.
- **`build_dashboard`** (`dashboard.dfy`).
  - Every fragment is parsed.
  - The records are sorted by recency with a stable insertion sort. This sort is proved to
    be the only stable descending order.
  - The page is built: one status row, one rail link and one history block per record,
    after a fixed home link. Empty input gives a single placeholder row.

Three behaviours of the code are easy to misread:

- A record's repository identifier can be empty. The code derives it from the file name
  when the section tag lacks the attributes, and the file `updates-.html` yields the empty
  name. `UpdateFile.EmptyRepoName` exhibits this.
- The fixed badge `RP` is not reserved for the empty name. The code gives `RP` to every
  name without a letter or digit. The name `rp` also gets `RP`, so the badge does not tell
  the two cases apart. `Badge.FallbackIsAmbiguous` exhibits this.
- A `data-status` value that is only whitespace strips to "" and becomes `"unknown"` through
  `status or "unknown"`. So the status is never empty.

## Model

| member | source | states |
|---|---|---|
| Text.Trim | scripts/build_dashboard.py:30 | `str.strip()`: the input is leading whitespace, then the result, then trailing whitespace; the result neither begins nor ends with whitespace |
| Text.TrimExact | scripts/build_dashboard.py:30 | the strip is unique: any split of the input into whitespace, a part that neither begins nor ends with whitespace, and whitespace gives exactly that part |
| Text.BlankIffAllSpace | scripts/build_dashboard.py:35 | `line.strip()` is empty exactly when every character of the line is whitespace |
| Text.RemoveAll | scripts/build_dashboard.py:53 | `str.replace(p, "")` never lengthens the text and leaves a text without `p` unchanged |
| Text.RemoveAllSkip | scripts/build_dashboard.py:53 | the text before the first `p` is kept, that `p` is dropped, and removal carries on in what follows it |
| Text.Join | scripts/build_dashboard.py:35 | `sep.join(ls)` has the length of the pieces plus one separator between each two, and begins with the first piece |
| Text.RemoveAllPrefix | scripts/build_dashboard.py:53 | a leading occurrence of `p` is dropped and removal continues on the rest, so the stem `updates-x` gives `x` |
| Tags.RemoveTags | scripts/build_dashboard.py:30 | the substitution never lengthens its input and keeps a leading character that is not `<` |
| Tags.RemoveTagsNoNewClose | scripts/build_dashboard.py:30 | deleting tags brings in no `>` the input lacks |
| Tags.RemoveTagsSkip | scripts/build_dashboard.py:30 | text without `<` in front of a whole tag is kept, the tag is deleted, and the substitution carries on after it |
| Tags.RemoveTagsTagFree | scripts/build_dashboard.py:30 | after the substitution no substring matches `<[^>]+>` |
| Tags.RemoveTagsOfTagFree | scripts/build_dashboard.py:30 | on a text with no tag the substitution is the identity |
| Tags.RemoveTagsWithoutOpen | scripts/build_dashboard.py:30 | on a text without `<` the substitution is the identity |
| Tags.StripTags | scripts/build_dashboard.py:29-30 | the result is no longer than the input, has no surrounding whitespace and no tag, and equals `value.strip()` when the input has no `<` |
| Tags.StripTagsSkip | scripts/build_dashboard.py:29-30 | the text survives and only the tag goes: `<`-free text before a whole tag is kept, the tag is deleted, the rest loses its own tags, and the whole is stripped |
| Tags.StripTagsExample | scripts/build_dashboard.py:29-30 | `<b>x</b>` strips to `x`: the text between tags survives |
| Tags.StripTagsIdempotent | scripts/build_dashboard.py:29-30 | stripping tags twice is the same as stripping them once |
| Lines.Lines | scripts/build_dashboard.py:35 | `str.splitlines()`: no line holds a boundary, and there are no lines exactly when the text is empty |
| Lines.LinesKeepText | scripts/build_dashboard.py:35 | only the boundaries are lost: the lines run together are the text with its boundary characters removed |
| Lines.SplitJoin | scripts/build_dashboard.py:35 | splitting `"\n".join(ls)` at `\n` gives `ls` back when no piece holds `\n` |
| Lines.LinesOfCrLf | scripts/build_dashboard.py:35 | `\r\n` is a single boundary: the text before it is one line and splitting resumes after the `\n` |
| Lines.LinesOfBreak | scripts/build_dashboard.py:35 | any other boundary character, a lone `\r` included, ends the line by itself and splitting resumes right after it |
| Lines.LinesOfJoin | scripts/build_dashboard.py:35 | `splitlines()` of pieces joined by a one-character boundary gives the pieces back, when no piece holds a boundary and the last piece is non-empty |
| Lines.IndentBlock | scripts/build_dashboard.py:33-35 | the block has one `\n`-separated piece per line of the text: a line with a non-whitespace character gains the padding, a whitespace-only line is unchanged; an empty text gives "" |
| Patterns.LazyBodyAt | scripts/build_dashboard.py:39 | `[^>]*>(.*?)CLOSE` finds the body that runs from the first `>` to the first `CLOSE` after it, and fails only when no body exists |
| Patterns.SearchSpan | scripts/build_dashboard.py:39 | `re.search` for a span pattern: the match found starts leftmost of all matches, and none is found exactly when none exists |
| Patterns.LastSecondSkipsNothing | scripts/build_dashboard.py:50 | the backtracking search for the second attribute skips no position where it matches and stops at the rightmost one |
| Patterns.LastFirstSkipsNothing | scripts/build_dashboard.py:50 | the backtracking search for the first attribute skips no position where the rest of the pattern matches |
| Patterns.FirstAtSound | scripts/build_dashboard.py:50 | a match assembled at a position of the first attribute is a match of the whole pattern |
| Patterns.FirstAtComplete | scripts/build_dashboard.py:50 | every match is found at its own first attribute, with a second attribute at least as far right |
| Patterns.TryFirstSound | scripts/build_dashboard.py:50 | what the backtracking search returns at a start is a match at that start |
| Patterns.TryFirstPrefersAll | scripts/build_dashboard.py:50 | every match at a start loses to the one the backtracking search returns, in the order the greedy `[^>]*` imposes |
| Patterns.AttrHitAt | scripts/build_dashboard.py:49-60 | at one start position: a match starting there that is preferred to every other match starting there, or none exactly when no match starts there |
| Patterns.SearchAttr | scripts/build_dashboard.py:49-52 | `re.search` for an attribute pattern: the leftmost match, preferred among those at its start; none exactly when none exists |
| Patterns.Body | scripts/build_dashboard.py:56-67 | group 3 of an article match is the text at the body's start, holds no `</article>` and is directly followed by one; a pattern without a body gives "" |
| Patterns.FirstValue | scripts/build_dashboard.py:53 | group 1 of a match is non-empty, holds no `"`, and is the text between the first attribute name with its `="` and the closing quote at the match's position |
| Patterns.SecondValue | scripts/build_dashboard.py:54 | group 2 of a match is non-empty, holds no `"`, and is the text between the second attribute name with its `="` and the closing quote at the match's position |
| Badge.Tokens | scripts/build_dashboard.py:113 | the tokens are non-empty runs of ASCII letters and digits |
| Badge.TokensSkip | scripts/build_dashboard.py:113 | separators before the first token split off nothing: leading runs of non-alphanumerics are dropped |
| Badge.TokensOfNoAlnum | scripts/build_dashboard.py:113 | a name without letters or digits splits into no token |
| Badge.TokensStep | scripts/build_dashboard.py:113 | the first token is the first maximal run of letters and digits, after any separators, and splitting resumes right after it |
| Badge.TokensKeepAlnum | scripts/build_dashboard.py:113 | the tokens run together are exactly the letters and digits of the name, in order |
| Badge.TokensOfJoin | scripts/build_dashboard.py:113 | splitting non-empty runs of letters and digits joined by a character that is neither gives the runs back |
| Badge.UpperAll | scripts/build_dashboard.py:120 | `str.upper()` on letters and digits keeps the length and upper-cases each character |
| Badge.TokensEmptyIff | scripts/build_dashboard.py:113-114 | a name has no token exactly when it has no letter or digit |
| Badge.BadgeLabel | scripts/build_dashboard.py:112-120 | one or two upper-case letters or digits; `RP` for a name without a letter or digit; otherwise starts with its first letter or digit upper-cased; with two tokens or more, the initials of the first two |
| Badge.BadgeOfSingleToken | scripts/build_dashboard.py:116-117 | a single-token name is badged with its first one or two characters, upper-cased |
| Badge.BadgeIgnoresLaterTokens | scripts/build_dashboard.py:118-119 | names whose first two tokens share their initials get the same badge, whatever follows |
| Badge.BadgeExamples | scripts/build_dashboard.py:112-120 | `my-repo` gives `MR`, `x` gives `X`, the empty name gives `RP` |
| Badge.FallbackIsAmbiguous | scripts/build_dashboard.py:114-115 | the name `rp` has letters and still gets the fallback badge `RP` |
| UpdateFile.ExtractSection | scripts/build_dashboard.py:38-42 | with no section span, the input stripped; otherwise the first span, from `<section` to the first `</section>` after its opening tag, which needs no stripping |
| UpdateFile.SectionText | scripts/build_dashboard.py:41 | a section span stripped is the span itself, beginning `<section` and ending `</section>` |
| UpdateFile.ParseIso | scripts/build_dashboard.py:15-26 | no time for ""; a time only from `fromisoformat` of the text or, for a text ending in `Z`, of the text with `+00:00` instead; the first attempt's time whenever it succeeds; no time only when the first attempt failed |
| UpdateFile.ZuluShorthand | scripts/build_dashboard.py:21-23 | a `Z` time that `fromisoformat` rejects parses as the same time with offset `+00:00` |
| UpdateFile.Summary | scripts/build_dashboard.py:68-70 | the summary has no surrounding whitespace and no tag; it is "" when the body has no `<h4>` heading, and otherwise `_strip_tags(unescape(...))` of group 1 of the first heading |
| UpdateFile.Identity | scripts/build_dashboard.py:49-54 | repository and agent are groups 1 and 2 of the first section-tag match; with no match, the stem without `updates-` and `"unknown"`; the agent is never empty |
| UpdateFile.ArticleFields | scripts/build_dashboard.py:56-70 | status, raw time and summary come from the first article match, stripped; with none, `"unknown"`, "" and "" |
| UpdateFile.TimeFields | scripts/build_dashboard.py:72-86 | a parsed time is shown as its `strftime` text, which sees the offset, stripped, and its instant is the key; an unparsed one is shown raw with key `datetime.min` |
| UpdateFile.ParseUpdate | scripts/build_dashboard.py:45-87 | the record's fields come from the extracted section as above; status and agent are never empty; with no article the status is `"unknown"` and the time shown is the raw text ""; a parsed time is shown through `strftime` and stripped, with its instant as the key; an unparsed one is shown raw with key `datetime.min` |
| UpdateFile.EmptyRepoName | scripts/build_dashboard.py:53 | the file `updates-.html` with empty content yields the empty repository name |
| Dashboard.ParseAll | scripts/build_dashboard.py:92 | one record per file, in file order, each the parse of that file |
| Dashboard.InsertMultiset | scripts/build_dashboard.py:93 | insertion adds exactly one record and loses none |
| Dashboard.InsertSorted | scripts/build_dashboard.py:93 | insertion into a sequence ordered by descending key keeps it ordered |
| Dashboard.InsertStable | scripts/build_dashboard.py:93 | insertion puts the new record before the others of equal key and keeps their relative order |
| Dashboard.SortByRecency | scripts/build_dashboard.py:93 | the sorted records are a permutation of the input with keys never increasing |
| Dashboard.SortStable | scripts/build_dashboard.py:93 | the sort is stable: the records of each key keep their input order |
| Dashboard.SortedStableUnique | scripts/build_dashboard.py:93 | two descending orders that keep each key's records in the same order are equal, so the sort gives Python's stable `sort(reverse=True)` result |
| Dashboard.RowOf | scripts/build_dashboard.py:126-136 | a status row shows the record's repository, status, displayed time, agent and summary, and is never the placeholder row |
| Dashboard.DotOf | scripts/build_dashboard.py:122-125 | a rail link names the record's repository and carries its badge of one or two upper-case letters or digits; it is never the home link |
| Dashboard.BlockOf | scripts/build_dashboard.py:138-146 | a history block shows the record's repository and agent, and its section with one piece per line of the section, each the line padded by 12 spaces unless it is whitespace-only; an empty section gives "" |
| Dashboard.RenderRows | scripts/build_dashboard.py:101-136 | no records give the single placeholder row; otherwise one status row per record, in order |
| Dashboard.RenderRail | scripts/build_dashboard.py:97-125 | the home link, then one badge link per record, in order |
| Dashboard.RenderHistory | scripts/build_dashboard.py:138-146 | one history block per record, in order, holding the section indented by 12 |
| Dashboard.BuildDashboard | scripts/build_dashboard.py:90-146 | no files give one placeholder row, the home link alone and no history; otherwise N rows, N history blocks and N+1 rail links, in sorted order |
| Dashboard.RowOrder | scripts/build_dashboard.py:86-93 | in the sorted records a strictly newer record comes strictly earlier, equal keys keep file order, and records without a parsed time come last |

## Left out

- File and path handling is not modelled. This covers the path constants, `glob`, `read_text`, the template and its three placeholder substitutions, and `write_text` (lines 9-12, 46, 91 and 148-152). The model takes the files as a sequence of name stem and content, in the order `sorted(glob(...))` lists them.
- `datetime.fromisoformat`, `strftime` and `html.unescape` are library code. They are the three fields of `UpdateFile.Library` and are not modelled further. A parsed time carries its instant and its UTC offset, so the formatted text may depend on both; the format string `%Y-%m-%d %H:%M %z` itself is not modelled.
- Offset-aware and naive times are not told apart. Python raises `TypeError` when the sort at line 93 compares an aware parsed time with the naive `datetime.min`, or with a naive parsed time. The model puts every parsed time on one timeline and never fails.
- A parsed time that is exactly `datetime.min` gets the same key as an unparsed one, as in Python. The model does not separate the two.
- The HTML text of rows, rail links and history blocks is not modelled (lines 98-110 and 124-145). Neither is `str.capitalize()` of the status label (line 126). A row, link or block is a datatype holding the record fields it shows.
- Lines.IndentBlock: `spaces` is a natural number. Python's `" " * spaces` makes a negative count give no padding, but the only call passes 12.
- The general regular-expression engine is not modelled. Only the six fixed patterns of the script are, each as its own scanner: the section span, the `<h4>` heading and the two attribute patterns (`patterns.dfy`), `<[^>]+>` (`tags.dfy`) and `[^A-Za-z0-9]+` (`badge.dfy`).

=== FILE: badge.dfy ===
/**
 * `badge_label`: the one- or two-letter badge shown for a repository in the
 * navigation rail. The repository name is split on runs of characters outside
 * `[A-Za-z0-9]`; the badge is built from the resulting tokens and upper-cased.
 */
module Badge {
  import opened Text

  predicate IsAlnum(c: char) {
    ('A' <= c <= 'Z') || ('a' <= c <= 'z') || ('0' <= c <= '9')
  }

  predicate AllAlnum(s: string) {
    forall i | 0 <= i < |s| :: IsAlnum(s[i])
  }

  /** A character a badge may hold: an upper-case ASCII letter or a digit. */
  predicate IsBadgeChar(c: char) {
    ('A' <= c <= 'Z') || ('0' <= c <= '9')
  }

  /** `str.upper()` on an ASCII letter or digit. */
  function Upper(c: char): (u: char)
    requires IsAlnum(c)
    ensures IsBadgeChar(u)
    ensures 'a' <= c <= 'z' ==> u as int == c as int - 32
    ensures !('a' <= c <= 'z') ==> u == c
  {
    if 'a' <= c <= 'z' then (c as int - 32) as char else c
  }

  function UpperAll(s: string): (u: string)
    requires AllAlnum(s)
    ensures |u| == |s| && forall i | 0 <= i < |s| :: u[i] == Upper(s[i])
  {
    if |s| == 0 then "" else [Upper(s[0])] + UpperAll(s[1..])
  }

  /** The length of the run of letters and digits that `s` begins with. */
  function RunLength(s: string): (n: nat)
    ensures n <= |s| && AllAlnum(s[..n])
    ensures n < |s| ==> !IsAlnum(s[n])
    ensures |s| > 0 && IsAlnum(s[0]) ==> n > 0
  {
    if |s| == 0 || !IsAlnum(s[0]) then 0
    else
      var n := 1 + RunLength(s[1..]);
      assert s[..n] == [s[0]] + s[1..][..n - 1];
      n
  }

  /**
   * `[part for part in re.split(r"[^A-Za-z0-9]+", s) if part]`: the maximal
   * runs of letters and digits of `s`, left to right.
   */
  function Tokens(s: string): (ts: seq<string>)
    decreases |s|
    ensures forall i | 0 <= i < |ts| :: |ts[i]| > 0 && AllAlnum(ts[i])
  {
    if |s| == 0 then []
    else if !IsAlnum(s[0]) then Tokens(s[1..])
    else
      var n := RunLength(s);
      [s[..n]] + Tokens(s[n..])
  }

  /** A run `x` followed by nothing or by a character outside `[A-Za-z0-9]` is one whole run. */
  lemma {:induction false} RunLengthOf(x: string, y: string)
    requires AllAlnum(x)
    requires |y| == 0 || !IsAlnum(y[0])
    ensures RunLength(x + y) == |x|
    decreases |x|
  {
    if |x| > 0 {
      assert (x + y)[1..] == x[1..] + y;
      RunLengthOf(x[1..], y);
    } else {
      assert x + y == y;
    }
  }

  /** No letter or digit anywhere in `s`. */
  predicate NoAlnum(s: string) {
    forall i | 0 <= i < |s| :: !IsAlnum(s[i])
  }

  /** Separators before a token are dropped: a leading run of them splits off nothing. */
  lemma {:induction false} TokensSkip(u: string, v: string)
    requires NoAlnum(u)
    ensures Tokens(u + v) == Tokens(v)
    decreases |u|
  {
    if |u| > 0 {
      assert (u + v)[0] == u[0];
      assert (u + v)[1..] == u[1..] + v;
      TokensSkip(u[1..], v);
    } else {
      assert u + v == v;
    }
  }

  /** A name without letters or digits has no token. */
  lemma {:induction false} TokensOfNoAlnum(u: string)
    requires NoAlnum(u)
    ensures Tokens(u) == []
  {
    TokensSkip(u, "");
    assert u + "" == u;
  }

  /**
   * The first token is the first maximal run of letters and digits, however
   * many separators precede it; the split resumes right after that run.
   */
  lemma TokensStep(u: string, x: string, v: string)
    requires NoAlnum(u)
    requires |x| > 0 && AllAlnum(x)
    requires |v| == 0 || !IsAlnum(v[0])
    ensures Tokens(u + x + v) == [x] + Tokens(v)
  {
    assert u + x + v == u + (x + v);
    TokensSkip(u, x + v);
    RunLengthOf(x, v);
    assert (x + v)[0] == x[0];
    assert (x + v)[..|x|] == x;
    assert (x + v)[|x|..] == v;
  }

  /**
   * The split undoes a join at a character outside `[A-Za-z0-9]`: non-empty
   * pieces of letters and digits come back as the tokens, one for one.
   */
  lemma {:induction false} TokensOfJoin(sep: char, ts: seq<string>)
    requires !IsAlnum(sep)
    requires forall i | 0 <= i < |ts| :: |ts[i]| > 0 && AllAlnum(ts[i])
    ensures Tokens(Join(sep, ts)) == ts
    decreases |ts|
  {
    if |ts| == 1 {
      var x := ts[0];
      RunLengthOf(x, "");
      assert x + "" == x;
      assert x[..|x|] == x && x[|x|..] == "";
    } else if |ts| > 1 {
      var x := ts[0];
      var j := Join(sep, ts[1..]);
      var s := x + [sep] + j;
      RunLengthOf(x, [sep] + j);
      assert s == x + ([sep] + j);
      assert s[..|x|] == x;
      assert s[|x|..] == [sep] + j;
      assert ([sep] + j)[1..] == j;
      assert forall i | 0 <= i < |ts| - 1 :: ts[1..][i] == ts[i + 1];
      TokensOfJoin(sep, ts[1..]);
      assert ts == [x] + ts[1..];
    }
  }

  /** The letters and digits of `s`, in order. */
  function KeepAlnum(s: string): (r: string)
    ensures AllAlnum(r)
  {
    if |s| == 0 then ""
    else if IsAlnum(s[0]) then [s[0]] + KeepAlnum(s[1..])
    else KeepAlnum(s[1..])
  }

  lemma KeepAlnumStep(s: string, i: nat)
    requires i < |s|
    ensures KeepAlnum(s[i..]) == (if IsAlnum(s[i]) then [s[i]] else "") + KeepAlnum(s[i + 1..])
  {
    assert s[i..][1..] == s[i + 1..];
  }

  /** A run of letters and digits `s[i..n]` is kept whole. */
  lemma {:induction false} KeepAlnumRun(s: string, i: nat, n: nat)
    requires i <= n <= |s|
    requires forall k | i <= k < n :: IsAlnum(s[k])
    ensures KeepAlnum(s[i..]) == s[i..n] + KeepAlnum(s[n..])
    decreases n - i
  {
    if i < n {
      KeepAlnumStep(s, i);
      KeepAlnumRun(s, i + 1, n);
      assert s[i..n] == [s[i]] + s[i + 1..n];
    }
  }

  /** The tokens, run together, are exactly the letters and digits of `s`: nothing else is dropped. */
  lemma {:induction false} TokensKeepAlnum(s: string)
    ensures Concat(Tokens(s)) == KeepAlnum(s)
    decreases |s|
  {
    if |s| > 0 {
      if !IsAlnum(s[0]) {
        TokensKeepAlnum(s[1..]);
      } else {
        var n := RunLength(s);
        var ts := Tokens(s);
        assert ts[1..] == Tokens(s[n..]);
        TokensKeepAlnum(s[n..]);
        assert forall k | 0 <= k < n :: IsAlnum(s[k]) by {
          forall k | 0 <= k < n ensures IsAlnum(s[k]) { assert s[..n][k] == s[k]; }
        }
        KeepAlnumRun(s, 0, n);
        assert s[0..] == s;
        assert s[0..n] == s[..n];
      }
    }
  }

  /** A name has no token exactly when it has no letter or digit. */
  lemma TokensEmptyIff(s: string)
    ensures |Tokens(s)| == 0 <==> |KeepAlnum(s)| == 0
  {
    TokensKeepAlnum(s);
    var ts := Tokens(s);
    if |ts| > 0 {
      assert Concat(ts) == ts[0] + Concat(ts[1..]);
    }
  }

  /** Python's `badge_label(repo)`. */
  function BadgeLabel(repo: string): (r: string)
    ensures 1 <= |r| <= 2
    ensures forall i | 0 <= i < |r| :: IsBadgeChar(r[i])
    ensures |KeepAlnum(repo)| == 0 ==> r == "RP"
    ensures |KeepAlnum(repo)| > 0 ==> r[0] == Upper(KeepAlnum(repo)[0])
    ensures var ts := Tokens(repo);
      |ts| >= 2 ==> |r| == 2 && r[0] == Upper(ts[0][0]) && r[1] == Upper(ts[1][0])
  {
    var parts := Tokens(repo);
    TokensEmptyIff(repo);
    TokensKeepAlnum(repo);
    if |parts| == 0 then "RP"
    else
      assert Concat(parts) == parts[0] + Concat(parts[1..]);
      assert KeepAlnum(repo)[0] == parts[0][0];
      if |parts| == 1 then
        UpperAll(if |parts[0]| < 2 then parts[0] else parts[0][..2])
      else
        UpperAll([parts[0][0], parts[1][0]])
  }

  /**
   * A name with a single run of letters and digits is badged with the first
   * one or two of them, upper-cased.
   */
  lemma BadgeOfSingleToken(repo: string)
    requires |Tokens(repo)| == 1
    ensures var a := KeepAlnum(repo);
      BadgeLabel(repo) == UpperAll(if |a| < 2 then a else a[..2])
  {
    TokensKeepAlnum(repo);
    var ts := Tokens(repo);
    assert Concat(ts) == ts[0] + Concat(ts[1..]);
    assert Concat(ts) == ts[0];
  }

  /** Tokens after the second never influence the badge. */
  lemma BadgeIgnoresLaterTokens(a: string, b: string)
    requires |Tokens(a)| >= 2 && |Tokens(b)| >= 2
    requires Tokens(a)[0][0] == Tokens(b)[0][0] && Tokens(a)[1][0] == Tokens(b)[1][0]
    ensures BadgeLabel(a) == BadgeLabel(b)
  {
  }

  /** "my-repo" splits into "my" and "repo". */
  lemma TokensOfMyRepo()
    ensures Tokens("my-repo") == ["my", "repo"]
  {
    assert RunLength("repo") == 4;
    assert "repo"[..4] == "repo" && "repo"[4..] == "";
    assert Tokens("repo") == ["repo"];
    assert "-repo"[1..] == "repo";
    assert Tokens("-repo") == ["repo"];
    assert RunLength("my-repo") == 2;
    assert "my-repo"[..2] == "my" && "my-repo"[2..] == "-repo";
  }

  lemma BadgeExamples()
    ensures BadgeLabel("my-repo") == "MR"
    ensures BadgeLabel("x") == "X"
    ensures BadgeLabel("") == "RP"
  {
    TokensOfMyRepo();
    var r := BadgeLabel("my-repo");
    assert r == [r[0], r[1]];
    assert RunLength("x") == 1;
  }

  /**
   * The fallback badge is not a reliable sign of a name without letters or
   * digits: the name "rp" gets the same badge.
   */
  lemma FallbackIsAmbiguous()
    ensures BadgeLabel("rp") == "RP" && |KeepAlnum("rp")| > 0
  {
    assert RunLength("rp") == 2;
    assert "rp"[..2] == "rp" && "rp"[2..] == "";
  }
}

=== FILE: dashboard.dfy ===
/**
 * `build_dashboard`: every update fragment parsed, the records ordered by
 * recency, and one status-table row, one navigation-rail link and one history
 * block produced per record, after a fixed home link at the head of the rail.
 */
module Dashboard {
  import opened Lines
  import opened Badge
  import opened UpdateFile

  /** An `updates-*.html` file: its name without extension, and its text. */
  datatype Fragment = Fragment(stem: string, content: string)

  function ParseAll(lib: Library, files: seq<Fragment>): (rs: seq<UpdateRecord>)
    ensures |rs| == |files|
    ensures forall i | 0 <= i < |files| :: rs[i] == ParseUpdate(lib, files[i].stem, files[i].content)
  {
    seq(|files|, i requires 0 <= i < |files| => ParseUpdate(lib, files[i].stem, files[i].content))
  }

  // ---------------------------------------------------------------------------
  // `updates.sort(key=lambda item: item["sort_key"], reverse=True)`
  // ---------------------------------------------------------------------------

  /** Keys never increase along `rs`. */
  predicate SortedByRecency(rs: seq<UpdateRecord>) {
    forall i, j | 0 <= i < j < |rs| :: rs[i].sortKey >= rs[j].sortKey
  }

  /** The records of `rs` whose key is `k`, in their order in `rs`. */
  function WithKey(rs: seq<UpdateRecord>, k: Instant): (r: seq<UpdateRecord>) {
    if |rs| == 0 then [] else (if rs[0].sortKey == k then [rs[0]] else []) + WithKey(rs[1..], k)
  }

  lemma WithKeyCons(x: UpdateRecord, rs: seq<UpdateRecord>)
    ensures forall k :: WithKey([x] + rs, k) == (if x.sortKey == k then [x] else []) + WithKey(rs, k)
  {
    assert ([x] + rs)[1..] == rs;
  }

  /** Inserts `x` into a sorted sequence in front of the first record whose key is not greater. */
  function Insert(x: UpdateRecord, rs: seq<UpdateRecord>): (r: seq<UpdateRecord>) {
    if |rs| == 0 then [x]
    else if rs[0].sortKey > x.sortKey then [rs[0]] + Insert(x, rs[1..])
    else [x] + rs
  }

  /** Insertion adds exactly `x`. */
  lemma {:induction false} InsertMultiset(x: UpdateRecord, rs: seq<UpdateRecord>)
    ensures multiset(Insert(x, rs)) == multiset(rs) + multiset{x}
    ensures |Insert(x, rs)| == |rs| + 1
    decreases |rs|
  {
    if |rs| > 0 && rs[0].sortKey > x.sortKey {
      InsertMultiset(x, rs[1..]);
      assert rs == [rs[0]] + rs[1..];
    }
  }

  /** Inserting a record no newer than `k` among records no newer than `k` keeps them all no newer. */
  lemma {:induction false} InsertKeysBelow(x: UpdateRecord, rs: seq<UpdateRecord>, k: Instant)
    requires x.sortKey <= k
    requires forall i | 0 <= i < |rs| :: rs[i].sortKey <= k
    ensures forall i | 0 <= i < |Insert(x, rs)| :: Insert(x, rs)[i].sortKey <= k
    decreases |rs|
  {
    if |rs| > 0 && rs[0].sortKey > x.sortKey {
      InsertKeysBelow(x, rs[1..], k);
    }
  }

  /** Insertion into a sorted sequence keeps it sorted. */
  lemma {:induction false} InsertSorted(x: UpdateRecord, rs: seq<UpdateRecord>)
    requires SortedByRecency(rs)
    ensures SortedByRecency(Insert(x, rs))
    decreases |rs|
  {
    if |rs| > 0 && rs[0].sortKey > x.sortKey {
      var rest := rs[1..];
      InsertSorted(x, rest);
      InsertKeysBelow(x, rest, rs[0].sortKey);
    } else if |rs| > 0 {
      assert forall i | 0 < i < |[x] + rs| :: ([x] + rs)[i] == rs[i - 1];
    }
  }

  /**
   * Insertion puts `x` before every record of equal key: the records of any
   * one key keep their relative order, with `x` first among them.
   */
  lemma {:induction false} InsertStable(x: UpdateRecord, rs: seq<UpdateRecord>)
    ensures forall k :: WithKey(Insert(x, rs), k) == WithKey([x] + rs, k)
    decreases |rs|
  {
    if |rs| > 0 && rs[0].sortKey > x.sortKey {
      var rest := rs[1..];
      var t := Insert(x, rest);
      InsertStable(x, rest);
      assert rs == [rs[0]] + rest;
      WithKeyCons(rs[0], t);
      WithKeyCons(rs[0], rest);
      WithKeyCons(x, rest);
      WithKeyCons(x, rs);
    }
  }

  /** Python's `sort(key=..., reverse=True)`: the records by descending key. */
  function SortByRecency(rs: seq<UpdateRecord>): (r: seq<UpdateRecord>)
    ensures |r| == |rs|
    ensures SortedByRecency(r)
    ensures multiset(r) == multiset(rs)
  {
    if |rs| == 0 then []
    else
      assert multiset(rs) == multiset(rs[1..]) + multiset{rs[0]} by {
        assert rs == [rs[0]] + rs[1..];
      }
      InsertMultiset(rs[0], SortByRecency(rs[1..]));
      InsertSorted(rs[0], SortByRecency(rs[1..]));
      Insert(rs[0], SortByRecency(rs[1..]))
  }

  /** The sort is stable: the records of each key keep their relative order. */
  lemma {:induction false} SortStable(rs: seq<UpdateRecord>)
    ensures forall k :: WithKey(SortByRecency(rs), k) == WithKey(rs, k)
    decreases |rs|
  {
    if |rs| > 0 {
      var t := SortByRecency(rs[1..]);
      SortStable(rs[1..]);
      InsertStable(rs[0], t);
      WithKeyCons(rs[0], t);
    }
  }

  /** In a sorted sequence, every key present is at most the first key. */
  lemma {:induction false} KeyBelowHead(rs: seq<UpdateRecord>, k: Instant)
    requires SortedByRecency(rs) && |rs| > 0
    ensures WithKey(rs, k) != [] ==> k <= rs[0].sortKey
    decreases |rs|
  {
    if rs[0].sortKey != k {
      assert WithKey(rs, k) == WithKey(rs[1..], k);
    }
    if rs[0].sortKey != k && |rs| > 1 {
      assert SortedByRecency(rs[1..]) by {
        forall i, j | 0 <= i < j < |rs| - 1 ensures rs[1..][i].sortKey >= rs[1..][j].sortKey {
          assert rs[1..][i] == rs[i + 1] && rs[1..][j] == rs[j + 1];
        }
      }
      KeyBelowHead(rs[1..], k);
      assert rs[1].sortKey <= rs[0].sortKey;
    }
  }

  /**
   * There is only one stable descending order: two sorted sequences whose
   * records of each key agree, in the same relative order, are equal. So
   * `SortByRecency` is the order Python's stable sort produces.
   */
  lemma {:induction false} SortedStableUnique(a: seq<UpdateRecord>, b: seq<UpdateRecord>)
    requires SortedByRecency(a) && SortedByRecency(b)
    requires forall k :: WithKey(a, k) == WithKey(b, k)
    ensures a == b
    decreases |a| + |b|
  {
    if |a| > 0 && |b| > 0 {
      var ka, kb := a[0].sortKey, b[0].sortKey;
      KeyBelowHead(a, kb);
      KeyBelowHead(b, ka);
      assert WithKey(a, ka) == [a[0]] + WithKey(a[1..], ka);
      assert WithKey(b, kb) == [b[0]] + WithKey(b[1..], kb);
      assert WithKey(a, kb) == WithKey(b, kb) && WithKey(b, ka) == WithKey(a, ka);
      assert ka == kb;
      assert a[0] == b[0] by {
        assert WithKey(a, ka)[0] == a[0] && WithKey(b, ka)[0] == b[0];
      }
      forall k ensures WithKey(a[1..], k) == WithKey(b[1..], k) {
        var head := if ka == k then [a[0]] else [];
        var x, y := WithKey(a[1..], k), WithKey(b[1..], k);
        assert WithKey(a, k) == head + x;
        assert WithKey(b, k) == head + y;
        assert WithKey(a, k) == WithKey(b, k);
        assert (head + x)[|head|..] == x && (head + y)[|head|..] == y;
      }
      assert SortedByRecency(a[1..]) && SortedByRecency(b[1..]);
      SortedStableUnique(a[1..], b[1..]);
      assert a == [a[0]] + a[1..];
      assert b == [b[0]] + b[1..];
    } else if |a| > 0 {
      assert WithKey(a, a[0].sortKey) == [a[0]] + WithKey(a[1..], a[0].sortKey);
      assert false;
    } else if |b| > 0 {
      assert WithKey(b, b[0].sortKey) == [b[0]] + WithKey(b[1..], b[0].sortKey);
      assert false;
    }
  }

  // ---------------------------------------------------------------------------
  // The page
  // ---------------------------------------------------------------------------

  /** A row of the status table. */
  datatype Row =
    | NoUpdatesRow   // repo "-", status "Missing", summary "No updates found"
    | StatusRow(repo: string, status: string, lastUpdate: string, agent: string, summary: string)

  /** A link of the navigation rail. */
  datatype RailEntry = HomeDot | RepoDot(repo: string, badge: string)

  /** A repository's history: a header naming repository and agent, then its indented section. */
  datatype HistoryBlock = HistoryBlock(repo: string, agent: string, section: string)

  datatype Page = Page(rail: seq<RailEntry>, rows: seq<Row>, history: seq<HistoryBlock>)

  /** The indentation of a section inside its history block. */
  const HistoryIndent := 12

  /**
   * A record's status row: the repository, the status, the displayed (not the
   * raw) time, the agent and the summary; never the placeholder row.
   */
  function RowOf(r: UpdateRecord): (row: Row)
    ensures row != NoUpdatesRow
    ensures row.repo == r.repo && row.status == r.status && row.lastUpdate == r.timeDisplay
    ensures row.agent == r.agent && row.summary == r.summary
  {
    StatusRow(r.repo, r.status, r.timeDisplay, r.agent, r.summary)
  }

  /** A record's rail link: its repository, under a badge of one or two capitals or digits. */
  function DotOf(r: UpdateRecord): (d: RailEntry)
    ensures d != HomeDot && d.repo == r.repo && d.badge == BadgeLabel(r.repo)
    ensures 1 <= |d.badge| <= 2 && forall i | 0 <= i < |d.badge| :: IsBadgeChar(d.badge[i])
  {
    RepoDot(r.repo, BadgeLabel(r.repo))
  }

  /**
   * A record's history block: repository and agent in the header, then the
   * section with one `\n`-separated piece per line of the section.
   */
  function BlockOf(r: UpdateRecord): (b: HistoryBlock)
    ensures b.repo == r.repo && b.agent == r.agent
    ensures r.sectionHtml == "" ==> b.section == ""
    ensures r.sectionHtml != "" ==> |SplitOn(b.section, '\n')| == |Lines.Lines(r.sectionHtml)|
    ensures r.sectionHtml != "" ==>
      forall i | 0 <= i < |Lines.Lines(r.sectionHtml)| ::
        SplitOn(b.section, '\n')[i] == IndentLine(Lines.Lines(r.sectionHtml)[i], HistoryIndent)
  {
    HistoryBlock(r.repo, r.agent, IndentBlock(r.sectionHtml, HistoryIndent))
  }

  /** The status table: one row per record, in order; a placeholder row when there is none. */
  method RenderRows(updates: seq<UpdateRecord>) returns (rows: seq<Row>)
    ensures |updates| == 0 ==> rows == [NoUpdatesRow]
    ensures |updates| > 0 ==> |rows| == |updates|
    ensures |updates| > 0 ==> forall i | 0 <= i < |updates| :: rows[i] == RowOf(updates[i])
  {
    if |updates| == 0 {
      return [NoUpdatesRow];
    }
    rows := [];
    var i := 0;
    while i < |updates|
      invariant 0 <= i <= |updates| && |rows| == i
      invariant forall k | 0 <= k < i :: rows[k] == RowOf(updates[k])
    {
      rows := rows + [RowOf(updates[i])];
      i := i + 1;
    }
  }

  /** The navigation rail: the home link, then one badge link per record, in order. */
  method RenderRail(updates: seq<UpdateRecord>) returns (rail: seq<RailEntry>)
    ensures |rail| == |updates| + 1 && rail[0] == HomeDot
    ensures forall i | 0 <= i < |updates| :: rail[i + 1] == DotOf(updates[i])
  {
    rail := [HomeDot];
    var i := 0;
    while i < |updates|
      invariant 0 <= i <= |updates| && |rail| == i + 1 && rail[0] == HomeDot
      invariant forall k | 0 <= k < i :: rail[k + 1] == DotOf(updates[k])
    {
      rail := rail + [DotOf(updates[i])];
      i := i + 1;
    }
  }

  /** The history column: one block per record, in order. */
  method RenderHistory(updates: seq<UpdateRecord>) returns (history: seq<HistoryBlock>)
    ensures |history| == |updates|
    ensures forall i | 0 <= i < |updates| :: history[i] == BlockOf(updates[i])
  {
    history := [];
    var i := 0;
    while i < |updates|
      invariant 0 <= i <= |updates| && |history| == i
      invariant forall k | 0 <= k < i :: history[k] == BlockOf(updates[k])
    {
      history := history + [BlockOf(updates[i])];
      i := i + 1;
    }
  }

  /**
   * Python's `build_dashboard()` up to the template substitution: every
   * fragment parsed, the records put in recency order, and the page rendered
   * from them.
   */
  method BuildDashboard(lib: Library, files: seq<Fragment>) returns (page: Page)
    ensures |files| == 0 ==> page == Page([HomeDot], [NoUpdatesRow], [])
    ensures |files| > 0 ==>
      && |page.rows| == |files| && |page.history| == |files| && |page.rail| == |files| + 1
      && page.rail[0] == HomeDot
    ensures |files| > 0 ==>
      var ordered := SortByRecency(ParseAll(lib, files));
      forall i | 0 <= i < |files| ::
        && page.rows[i] == RowOf(ordered[i])
        && page.rail[i + 1] == DotOf(ordered[i])
        && page.history[i] == BlockOf(ordered[i])
  {
    var parsed := ParseAll(lib, files);
    var updates := SortByRecency(parsed);
    var rows := RenderRows(updates);
    var rail := RenderRail(updates);
    var history := RenderHistory(updates);
    page := Page(rail, rows, history);
  }

  /**
   * For the records parsed from the files, in file order (`ParseAll`), the
   * rows follow them in recency order: keys never increase down
   * the table, a strictly newer record is listed strictly earlier, records of
   * equal key keep the order of their files, and once a record without a
   * parsed time (key `datetime.min`) appears, every later one has that key too.
   */
  lemma RowOrder(parsed: seq<UpdateRecord>)
    ensures var ordered := SortByRecency(parsed);
      && (forall i, j | 0 <= i < |ordered| && 0 <= j < |ordered| ::
            ordered[i].sortKey > ordered[j].sortKey ==> i < j)
      && (forall k :: WithKey(ordered, k) == WithKey(parsed, k))
      && (forall i, j | 0 <= i < j < |ordered| ::
            ordered[i].sortKey == MinInstant ==> ordered[j].sortKey == MinInstant)
  {
    SortStable(parsed);
  }
}

=== FILE: lines.dfy ===
/**
 * `str.splitlines()`, `str.join` with a one-character separator, and the
 * block indentation the dashboard applies to each repository's raw section
 * before embedding it in the history column.
 */
module Lines {
  import opened Wrappers
  import opened Text

  /** The line boundaries Python's `str.splitlines()` recognises. */
  predicate IsLineBreak(c: char) {
    var n := c as int;
    (0x0A <= n <= 0x0D) || (0x1C <= n <= 0x1E) || n == 0x85 || n == 0x2028 || n == 0x2029
  }

  predicate NoBreak(s: string) {
    forall i | 0 <= i < |s| :: !IsLineBreak(s[i])
  }

  /** The characters of `s` that are not line boundaries, in order. */
  function DropBreaks(s: string): (r: string)
    ensures |r| <= |s|
  {
    if |s| == 0 then ""
    else if IsLineBreak(s[0]) then DropBreaks(s[1..])
    else [s[0]] + DropBreaks(s[1..])
  }

  /** The length of the first line of `s`: the index of its first line boundary, or `|s|`. */
  function LineLength(s: string): (n: nat)
    ensures n <= |s| && NoBreak(s[..n])
    ensures n < |s| ==> IsLineBreak(s[n])
  {
    if |s| == 0 || IsLineBreak(s[0]) then 0
    else
      var n := 1 + LineLength(s[1..]);
      assert s[..n] == [s[0]] + s[1..][..n - 1];
      n
  }

  /** The width of the line boundary at `s[n]`: `\r\n` is one boundary of two characters. */
  function BreakWidth(s: string, n: nat): (w: nat)
    requires n < |s|
    ensures 1 <= w <= 2 && n + w <= |s|
  {
    if s[n] == '\r' && n + 1 < |s| && s[n + 1] == '\n' then 2 else 1
  }

  /**
   * Python's `str.splitlines()`: the lines of `s` without their boundaries. The
   * empty string has no lines, and a final boundary does not open an empty line.
   */
  function Lines(s: string): (ls: seq<string>)
    decreases |s|
    ensures forall i | 0 <= i < |ls| :: NoBreak(ls[i])
    ensures |ls| == 0 <==> |s| == 0
    ensures |ls| <= |s|
  {
    if |s| == 0 then []
    else
      var n := LineLength(s);
      if n == |s| then [s]
      else [s[..n]] + Lines(s[n + BreakWidth(s, n)..])
  }

  /** One step of `DropBreaks` on a suffix of `s`. */
  lemma DropBreaksStep(s: string, i: nat)
    requires i < |s|
    ensures DropBreaks(s[i..]) == (if IsLineBreak(s[i]) then "" else [s[i]]) + DropBreaks(s[i + 1..])
  {
    assert s[i..][1..] == s[i + 1..];
  }

  /** A stretch `s[i..m]` made of a break-free part `s[i..n]` then boundaries keeps exactly `s[i..n]`. */
  lemma {:induction false} DropBreaksAround(s: string, i: nat, n: nat, m: nat)
    requires i <= n <= m <= |s|
    requires forall k | i <= k < n :: !IsLineBreak(s[k])
    requires forall k | n <= k < m :: IsLineBreak(s[k])
    ensures DropBreaks(s[i..]) == s[i..n] + DropBreaks(s[m..])
    decreases m - i
  {
    if i < n {
      DropBreaksStep(s, i);
      DropBreaksAround(s, i + 1, n, m);
      assert s[i..n] == [s[i]] + s[i + 1..n];
      assert DropBreaks(s[i..]) == [s[i]] + (s[i + 1..n] + DropBreaks(s[m..]));
    } else if i < m {
      DropBreaksStep(s, i);
      DropBreaksAround(s, i + 1, i + 1, m);
      assert DropBreaks(s[i..]) == DropBreaks(s[i + 1..]);
      assert s[i..n] == [] && s[i + 1..i + 1] == [];
    } else {
      assert s[i..n] == [];
    }
  }

  /** The first line holds no boundary. */
  lemma FirstLineFree(s: string)
    ensures forall k | 0 <= k < LineLength(s) :: !IsLineBreak(s[k])
  {
    var n := LineLength(s);
    forall k | 0 <= k < n ensures !IsLineBreak(s[k]) {
      assert s[..n][k] == s[k];
    }
  }

  /** A boundary of width two, `\r\n`, is two boundary characters. */
  lemma BreakIsBreaks(s: string, n: nat)
    requires n < |s| && IsLineBreak(s[n])
    ensures forall k | n <= k < n + BreakWidth(s, n) :: IsLineBreak(s[k])
  {
    if BreakWidth(s, n) == 2 {
      assert s[n + 1] == '\n';
    }
  }

  /** A text without boundaries is kept whole by `DropBreaks`. */
  lemma DropWholeLine(s: string)
    requires LineLength(s) == |s|
    ensures DropBreaks(s) == s
  {
    FirstLineFree(s);
    DropBreaksAround(s, 0, |s|, |s|);
    assert s[0..] == s && s[0..|s|] == s && s[|s|..] == [];
  }

  /** `DropBreaks` keeps the first line whole and drops the boundary after it. */
  lemma DropFirstLine(s: string)
    requires LineLength(s) < |s|
    ensures DropBreaks(s) == s[..LineLength(s)] + DropBreaks(s[LineLength(s) + BreakWidth(s, LineLength(s))..])
  {
    FirstLineFree(s);
    BreakIsBreaks(s, LineLength(s));
    DropBreaksAround(s, 0, LineLength(s), LineLength(s) + BreakWidth(s, LineLength(s)));
    assert s[0..] == s && s[0..LineLength(s)] == s[..LineLength(s)];
  }

  /**
   * Nothing but the line boundaries is lost: the lines, concatenated, are the
   * characters of `s` that are not boundaries.
   */
  lemma {:induction false} LinesKeepText(s: string)
    ensures Concat(Lines(s)) == DropBreaks(s)
    decreases |s|
  {
    if |s| > 0 {
      if LineLength(s) == |s| {
        DropWholeLine(s);
        assert Lines(s) == [s];
        assert Concat([s]) == s + Concat([]);
      } else {
        var rest := s[LineLength(s) + BreakWidth(s, LineLength(s))..];
        LinesKeepText(rest);
        DropFirstLine(s);
        var ls := Lines(s);
        assert ls == [s[..LineLength(s)]] + Lines(rest);
        assert ls[1..] == Lines(rest);
      }
    }
  }

  /** A break-free `x` followed by nothing or by a boundary: the first line of `x + y` is `x`. */
  lemma {:induction false} LineLengthOf(x: string, y: string)
    requires NoBreak(x)
    requires |y| == 0 || IsLineBreak(y[0])
    ensures LineLength(x + y) == |x|
    decreases |x|
  {
    if |x| > 0 {
      assert (x + y)[1..] == x[1..] + y;
      LineLengthOf(x[1..], y);
    } else {
      assert x + y == y;
    }
  }

  /** `\r\n` is one boundary: the line before it ends there and the rest starts after the `\n`. */
  lemma LinesOfCrLf(x: string, y: string)
    requires NoBreak(x)
    ensures Lines(x + "\r\n" + y) == [x] + Lines(y)
  {
    var s := x + "\r\n" + y;
    assert s == x + ("\r\n" + y);
    LineLengthOf(x, "\r\n" + y);
    assert s[|x|] == '\r' && s[|x| + 1] == '\n';
    assert s[..|x|] == x;
    assert s[|x| + 2..] == y;
  }

  /**
   * Any other boundary character, including a `\r` not followed by `\n`,
   * ends the line by itself: the rest starts right after it.
   */
  lemma LinesOfBreak(x: string, c: char, y: string)
    requires NoBreak(x) && IsLineBreak(c)
    requires !(c == '\r' && |y| > 0 && y[0] == '\n')
    ensures Lines(x + [c] + y) == [x] + Lines(y)
  {
    var s := x + [c] + y;
    assert s == x + ([c] + y);
    LineLengthOf(x, [c] + y);
    assert s[|x|] == c;
    assert |y| > 0 ==> s[|x| + 1] == y[0];
    assert BreakWidth(s, |x|) == 1;
    assert s[..|x|] == x;
    assert s[|x| + 1..] == y;
  }

  /**
   * `str.splitlines()` undoes a join at a one-character line boundary: the
   * lines are exactly the pieces, split where the separators were, when no
   * piece holds a boundary and the last piece is not empty.
   */
  lemma {:induction false} LinesOfJoin(sep: char, ls: seq<string>)
    requires IsLineBreak(sep)
    requires |ls| >= 1 && |ls[|ls| - 1]| > 0
    requires forall i | 0 <= i < |ls| :: NoBreak(ls[i])
    ensures Lines(Join(sep, ls)) == ls
    decreases |ls|
  {
    var x := ls[0];
    if |ls| == 1 {
      LineLengthOf(x, "");
      assert x + "" == x;
    } else {
      var j := Join(sep, ls[1..]);
      var s := x + [sep] + j;
      assert NoBreak(x);
      LineLengthOf(x, [sep] + j);
      assert s == x + ([sep] + j);
      assert s[|x|] == sep;
      assert s[..|x|] == x;
      assert s[|x| + 1..] == j;
      assert |j| > 0 && (j[0] == sep || !IsLineBreak(j[0])) by {
        if |ls[1]| > 0 {
          assert j[..|ls[1]|] == ls[1];
          assert j[0] == ls[1][0] && NoBreak(ls[1]);
        } else {
          assert |ls[1..]| > 1;
          assert j[0] == sep;
        }
      }
      assert BreakWidth(s, |x|) == 1;
      assert forall i | 0 <= i < |ls| - 1 :: ls[1..][i] == ls[i + 1];
      LinesOfJoin(sep, ls[1..]);
      assert ls == [x] + ls[1..];
    }
  }

  /** Python's `s.split(sep)`: always at least one piece, and no piece contains `sep`. */
  function SplitOn(s: string, sep: char): (ps: seq<string>)
    decreases |s|
    ensures |ps| >= 1
    ensures forall i | 0 <= i < |ps| :: sep !in ps[i]
  {
    match FindChar(s, sep, 0)
    case None => [s]
    case Some(k) => [s[..k]] + SplitOn(s[k + 1..], sep)
  }

  /** Splitting a join at its separator gives the pieces back, when no piece contains it. */
  lemma {:induction false} SplitJoin(sep: char, ls: seq<string>)
    requires |ls| >= 1
    requires forall i | 0 <= i < |ls| :: sep !in ls[i]
    ensures SplitOn(Join(sep, ls), sep) == ls
    decreases |ls|
  {
    var x := ls[0];
    if |ls| == 1 {
      assert FindChar(x, sep, 0).None?;
    } else {
      var j := Join(sep, ls[1..]);
      var s := x + [sep] + j;
      assert s[|x|] == sep;
      assert forall m | 0 <= m < |x| :: s[m] == x[m];
      assert FindChar(s, sep, 0) == Some(|x|);
      assert s[..|x|] == x;
      assert s[|x| + 1..] == j;
      SplitJoin(sep, ls[1..]);
    }
  }

  /** A line that `str.strip()` leaves non-empty: it has a non-whitespace character. */
  predicate HasText(line: string) {
    Trim(line) != ""
  }

  function Spaces(n: nat): (r: string)
    ensures |r| == n && forall i | 0 <= i < n :: r[i] == ' '
  {
    if n == 0 then "" else [' '] + Spaces(n - 1)
  }

  /** One line of `_indent_block`: padded when it has a non-whitespace character, untouched when blank. */
  function IndentLine(line: string, spaces: nat): (r: string)
    ensures AllSpace(line) ==> r == line
    ensures !AllSpace(line) ==> r == Spaces(spaces) + line
  {
    BlankIffAllSpace(line);
    if HasText(line) then Spaces(spaces) + line else line
  }

  /** Each line indented. */
  function IndentLines(ls: seq<string>, spaces: nat): (out: seq<string>)
    ensures |out| == |ls|
    ensures forall i | 0 <= i < |ls| :: out[i] == IndentLine(ls[i], spaces)
  {
    seq(|ls|, i requires 0 <= i < |ls| => IndentLine(ls[i], spaces))
  }

  /**
   * Python's `_indent_block(text, spaces)` for a non-negative `spaces`. The
   * block has exactly the lines of `text`, one per `\n`-separated piece: a
   * line with a non-whitespace character gains `spaces` leading spaces, a
   * whitespace-only line is unchanged. A text without lines gives "".
   */
  function IndentBlock(text: string, spaces: nat): (r: string)
    ensures text == "" ==> r == ""
    ensures text != "" ==>
      var ls := Lines(text);
      var ps := SplitOn(r, '\n');
      && |ps| == |ls|
      && forall i | 0 <= i < |ls| ::
           ps[i] == (if AllSpace(ls[i]) then ls[i] else Spaces(spaces) + ls[i])
  {
    var ls := Lines(text);
    var out := IndentLines(ls, spaces);
    assert |out| >= 1 ==> SplitOn(Join('\n', out), '\n') == out by {
      if |out| >= 1 {
        forall i | 0 <= i < |out| ensures '\n' !in out[i] {
          assert NoBreak(ls[i]);
        }
        SplitJoin('\n', out);
      }
    }
    Join('\n', out)
  }
}

=== FILE: patterns.dfy ===
/**
 * The fixed regular expressions of the dashboard builder, each written as an
 * explicit scanner next to a declarative description of what the regular
 * expression matches, and proved to return the match Python's `re.search`
 * returns: the leftmost start, with greedy `[^>]*` tried longest first and
 * lazy `.*?` shortest first.
 *
 *   section span   <section[^>]*>.*?</section>          (DOTALL)
 *   heading        <h4>(.*?)</h4>                        (DOTALL)
 *   section tag    <section[^>]*data-repo="([^"]+)"[^>]*data-agent="([^"]+)"
 *   article        <article[^>]*data-status="([^"]+)"[^>]*data-time="([^"]+)"[^>]*>(.*?)</article>   (DOTALL)
 */
module Patterns {
  import opened Wrappers
  import opened Text

  // ---------------------------------------------------------------------------
  // Lazy bodies: `[^>]*>(.*?)CLOSE` or `(.*?)CLOSE`
  // ---------------------------------------------------------------------------

  /**
   * From `from`: when `toTagEnd`, `[^>]*>` runs up to and including the first
   * `>`; then the body `s[b..e]` runs up to the first occurrence of `close`,
   * which sits at `e`.
   */
  ghost predicate LazyBody(s: string, from: nat, toTagEnd: bool, close: string, b: nat, e: nat) {
    && (if toTagEnd then from < b <= |s| && s[b - 1] == '>' && NoCharIn(s, '>', from, b - 1)
        else b == from)
    && b <= e && StartsAt(s, e, close) && NoMatchIn(s, close, b, e)
  }

  function LazyBodyAt(s: string, from: nat, toTagEnd: bool, close: string): (r: Option<(nat, nat)>)
    ensures r.Some? ==> LazyBody(s, from, toTagEnd, close, r.value.0, r.value.1)
    ensures r.None? ==> forall b: nat, e: nat :: !LazyBody(s, from, toTagEnd, close, b, e)
  {
    var bodyStart := if toTagEnd then
                       match FindChar(s, '>', from)
                       case Some(j) => Some(j + 1)
                       case None => None
                     else Some(from);
    match bodyStart
    case None => None
    case Some(b) =>
      match Find(s, close, b)
      case Some(e) => Some((b, e))
      case None => None
  }

  // ---------------------------------------------------------------------------
  // Spans: `OPEN[^>]*>(.*?)CLOSE` or `OPEN(.*?)CLOSE`
  // ---------------------------------------------------------------------------

  datatype SpanPattern = SpanPattern(open: string, toTagEnd: bool, close: string)

  /** `<section[^>]*>.*?</section>`: the whole span is the group. */
  const SectionSpan := SpanPattern("<section", true, "</section>")

  /** `<h4>(.*?)</h4>`: the body is the group. */
  const Heading := SpanPattern("<h4>", false, "</h4>")

  /** A match found in `s`: it starts at `start`, its body is `s[bodyStart..bodyEnd]`. */
  datatype Span = Span(start: nat, bodyStart: nat, bodyEnd: nat)

  ghost predicate IsSpan(s: string, p: SpanPattern, m: Span) {
    StartsAt(s, m.start, p.open)
    && LazyBody(s, m.start + |p.open|, p.toTagEnd, p.close, m.bodyStart, m.bodyEnd)
  }

  /** The span that `re.search` returns: a match, and no match starts further left. */
  ghost predicate IsFirstSpan(s: string, p: SpanPattern, m: Span) {
    IsSpan(s, p, m) && forall m' :: IsSpan(s, p, m') ==> m.start <= m'.start
  }

  /** The pattern matches nowhere in `s`. */
  ghost predicate NoSpan(s: string, p: SpanPattern) {
    forall m :: !IsSpan(s, p, m)
  }

  function SpanAt(s: string, p: SpanPattern, i: nat): (r: Option<Span>)
    ensures r.Some? ==> IsSpan(s, p, r.value) && r.value.start == i
    ensures r.None? ==> forall m :: IsSpan(s, p, m) ==> m.start != i
  {
    if !StartsAt(s, i, p.open) then None
    else
      match LazyBodyAt(s, i + |p.open|, p.toTagEnd, p.close)
      case Some((b, e)) => Some(Span(i, b, e))
      case None => None
  }

  /** `re.search` from position `i`: the leftmost span starting at or after `i`. */
  function SearchSpanFrom(s: string, p: SpanPattern, i: nat): (r: Option<Span>)
    decreases |s| + 1 - i
    ensures r.Some? ==> IsSpan(s, p, r.value) && i <= r.value.start
                        && forall m :: IsSpan(s, p, m) && i <= m.start ==> r.value.start <= m.start
    ensures r.None? ==> forall m :: IsSpan(s, p, m) ==> m.start < i
  {
    if i > |s| then None
    else
      match SpanAt(s, p, i)
      case Some(m) => Some(m)
      case None => SearchSpanFrom(s, p, i + 1)
  }

  /** `re.search(pattern, s)`: the first span of `s`, or None when the pattern matches nowhere. */
  function SearchSpan(s: string, p: SpanPattern): (r: Option<Span>)
    ensures r.Some? ==> IsFirstSpan(s, p, r.value)
    ensures r.None? <==> NoSpan(s, p)
  {
    SearchSpanFrom(s, p, 0)
  }

  // ---------------------------------------------------------------------------
  // Tags with two quoted attributes:
  //   OPEN[^>]*FIRST([^"]+)"[^>]*SECOND([^"]+)"   optionally followed by   [^>]*>(.*?)CLOSE
  // ---------------------------------------------------------------------------

  datatype AttrPattern = AttrPattern(open: string, first: string, second: string, body: Option<string>)

  const SectionAttrs := AttrPattern("<section", "data-repo=\"", "data-agent=\"", None)
  const ArticleAttrs := AttrPattern("<article", "data-status=\"", "data-time=\"", Some("</article>"))

  /**
   * One way the pattern can match: `OPEN` at `start`, `FIRST` at `firstAt` with its
   * value ending at the quote `firstEnd`, `SECOND` at `secondAt` with its value
   * ending at the quote `secondEnd`, and the body `s[bodyStart..bodyEnd]`.
   */
  datatype AttrHit = AttrHit(start: nat, firstAt: nat, firstEnd: nat,
                             secondAt: nat, secondEnd: nat, bodyStart: nat, bodyEnd: nat)

  /** `NAME([^"]+)"` at `i`: the value is `s[i + |name|..e]` and `s[e]` is its closing quote. */
  ghost predicate QuotedAt(s: string, i: nat, name: string, e: nat) {
    StartsAt(s, i, name) && i + |name| < e < |s| && s[e] == '"' && NoCharIn(s, '"', i + |name|, e)
  }

  function QuotedEnd(s: string, i: nat, name: string): (r: Option<nat>)
    ensures r.Some? ==> QuotedAt(s, i, name, r.value)
  {
    if !StartsAt(s, i, name) then None
    else
      match FindChar(s, '"', i + |name|)
      case Some(e) => if e > i + |name| then Some(e) else None
      case None => None
  }

  /** A quoted value, when there is one, is the one `QuotedEnd` finds. */
  lemma QuotedEndComplete(s: string, i: nat, name: string, e: nat)
    requires QuotedAt(s, i, name, e)
    ensures QuotedEnd(s, i, name) == Some(e)
  {
    var r := FindChar(s, '"', i + |name|);
    assert r.Some? && r.value <= e;
  }

  /** What follows the second value, from `from`: nothing, or `[^>]*>(.*?)CLOSE`. */
  ghost predicate Tail(s: string, body: Option<string>, from: nat, b: nat, e: nat) {
    match body
    case None => b == from && e == from
    case Some(close) => LazyBody(s, from, true, close, b, e)
  }

  function TailAt(s: string, body: Option<string>, from: nat): (r: Option<(nat, nat)>)
    ensures r.Some? ==> Tail(s, body, from, r.value.0, r.value.1)
  {
    match body
    case None => Some((from, from))
    case Some(close) => LazyBodyAt(s, from, true, close)
  }

  /** The lazy body is determined by where it starts: the first `>`, then the first `close`. */
  lemma LazyBodyUnique(s: string, from: nat, close: string, b: nat, e: nat, b': nat, e': nat)
    requires LazyBody(s, from, true, close, b, e) && LazyBody(s, from, true, close, b', e')
    ensures b == b' && e == e'
  {
    assert b <= b' && b' <= b;
  }

  /** A tail, when there is one, is the one `TailAt` finds. */
  lemma TailAtComplete(s: string, body: Option<string>, from: nat, b: nat, e: nat)
    requires Tail(s, body, from, b, e)
    ensures TailAt(s, body, from) == Some((b, e))
  {
    if body.Some? {
      var r := LazyBodyAt(s, from, true, body.value);
      LazyBodyUnique(s, from, body.value, b, e, r.value.0, r.value.1);
    }
  }

  /** `SECOND([^"]+)"` at `u`, its value closed at `g`, then the tail with body `s[b..e]`. */
  ghost predicate SecondFrom(s: string, p: AttrPattern, u: nat, g: nat, b: nat, e: nat) {
    QuotedAt(s, u, p.second, g) && Tail(s, p.body, g + 1, b, e)
  }

  /** The second half of a match, from `from`: `[^>]*SECOND([^"]+)"` and the tail. */
  ghost predicate SecondHit(s: string, p: AttrPattern, from: nat, u: nat, g: nat, b: nat, e: nat) {
    from <= u && NoCharIn(s, '>', from, u) && SecondFrom(s, p, u, g, b, e)
  }

  ghost predicate IsAttrHit(s: string, p: AttrPattern, m: AttrHit) {
    && StartsAt(s, m.start, p.open)
    && m.start + |p.open| <= m.firstAt && NoCharIn(s, '>', m.start + |p.open|, m.firstAt)
    && QuotedAt(s, m.firstAt, p.first, m.firstEnd)
    && SecondHit(s, p, m.firstEnd + 1, m.secondAt, m.secondEnd, m.bodyStart, m.bodyEnd)
  }

  /** The pattern matches nowhere in `s`. */
  ghost predicate NoAttrHit(s: string, p: AttrPattern) {
    forall m :: !IsAttrHit(s, p, m)
  }

  /**
   * The backtracking order among matches at one start: the first `[^>]*` is
   * greedy, so a later `FIRST` wins; for the same one, so does a later `SECOND`.
   */
  ghost predicate Prefers(m: AttrHit, m': AttrHit) {
    m'.firstAt < m.firstAt || (m'.firstAt == m.firstAt && m'.secondAt <= m.secondAt)
  }

  /** The match `re.search` returns: leftmost start, then the preferred match at that start. */
  ghost predicate IsFirstAttrHit(s: string, p: AttrPattern, m: AttrHit) {
    && IsAttrHit(s, p, m)
    && forall m' :: IsAttrHit(s, p, m') ==> m.start < m'.start || (m.start == m'.start && Prefers(m, m'))
  }

  /** The first `>` at or after `from`, or `|s|`: how far a greedy `[^>]*` from `from` reaches. */
  function TagBound(s: string, from: nat): (r: nat)
    requires from <= |s|
    ensures from <= r <= |s| && NoCharIn(s, '>', from, r)
    ensures r < |s| ==> s[r] == '>'
  {
    match FindChar(s, '>', from)
    case Some(j) => j
    case None => |s|
  }

  /**
   * `SECOND([^"]+)"` and the tail tried at `u`: the closing quote of the value
   * and the body, when this choice of `u` leads to a match.
   */
  function SecondAt(s: string, p: AttrPattern, u: nat): (r: Option<(nat, nat, nat)>)
    ensures r.Some? ==> SecondFrom(s, p, u, r.value.0, r.value.1, r.value.2)
  {
    match QuotedEnd(s, u, p.second)
    case None => None
    case Some(g) =>
      match TailAt(s, p.body, g + 1)
      case Some((b, e)) => Some((g, b, e))
      case None => None
  }

  /** A second half from `u`, when there is one, is the one `SecondAt` finds. */
  lemma SecondAtComplete(s: string, p: AttrPattern, u: nat, g: nat, b: nat, e: nat)
    requires SecondFrom(s, p, u, g, b, e)
    ensures SecondAt(s, p, u) == Some((g, b, e))
  {
    QuotedEndComplete(s, u, p.second, g);
    TailAtComplete(s, p.body, g + 1, b, e);
  }

  /**
   * The `u` nearest `hi`, going down to `lo`, at which `SECOND` and the tail
   * match: how the greedy `[^>]*` before `SECOND` gives back one character at a
   * time until the rest of the pattern matches.
   */
  function LastSecond(s: string, p: AttrPattern, lo: nat, hi: int): (r: Option<nat>)
    requires lo - 1 <= hi
    decreases hi - lo + 1
    ensures r.Some? ==> lo <= r.value <= hi && SecondAt(s, p, r.value).Some?
  {
    if hi < lo then None
    else if SecondAt(s, p, hi).Some? then Some(hi)
    else LastSecond(s, p, lo, hi - 1)
  }

  /** No `u` where `SECOND` matches is skipped: `LastSecond` stops there or further right. */
  lemma {:induction false} LastSecondSkipsNothing(s: string, p: AttrPattern, lo: nat, hi: int, u: nat)
    requires lo <= u <= hi && SecondAt(s, p, u).Some?
    ensures LastSecond(s, p, lo, hi).Some? && u <= LastSecond(s, p, lo, hi).value
    decreases hi - lo + 1
  {
    if SecondAt(s, p, hi).Some? {
      assert LastSecond(s, p, lo, hi) == Some(hi);
    } else {
      LastSecondSkipsNothing(s, p, lo, hi - 1, u);
      assert LastSecond(s, p, lo, hi) == LastSecond(s, p, lo, hi - 1);
    }
  }

  /**
   * The preferred match whose `FIRST` sits at `q`, if there is one: the value's
   * closing quote is the first `"` after it, and `SECOND` is tried from the
   * first `>` after that quote downwards.
   */
  function FirstAt(s: string, p: AttrPattern, start: nat, q: nat): (r: Option<AttrHit>)
    ensures r.Some? ==> r.value.start == start && r.value.firstAt == q
  {
    var f := QuotedEnd(s, q, p.first);
    if f.None? then None
    else
      var u := LastSecond(s, p, f.value + 1, TagBound(s, f.value + 1));
      if u.None? then None
      else
        var (g, b, e) := SecondAt(s, p, u.value).value;
        Some(AttrHit(start, q, f.value, u.value, g, b, e))
  }

  /** The `q` nearest `hi`, going down to `lo`, at which `FirstAt` finds a match. */
  function LastFirst(s: string, p: AttrPattern, start: nat, lo: nat, hi: int): (r: Option<nat>)
    requires lo - 1 <= hi
    decreases hi - lo + 1
    ensures r.Some? ==> lo <= r.value <= hi && FirstAt(s, p, start, r.value).Some?
  {
    if hi < lo then None
    else if FirstAt(s, p, start, hi).Some? then Some(hi)
    else LastFirst(s, p, start, lo, hi - 1)
  }

  /** No `q` where `FirstAt` succeeds is skipped: `LastFirst` stops there or further right. */
  lemma {:induction false} LastFirstSkipsNothing(s: string, p: AttrPattern, start: nat, lo: nat, hi: int, q: nat)
    requires lo <= q <= hi && FirstAt(s, p, start, q).Some?
    ensures LastFirst(s, p, start, lo, hi).Some? && q <= LastFirst(s, p, start, lo, hi).value
    decreases hi - lo + 1
  {
    if q < hi && FirstAt(s, p, start, hi).None? {
      LastFirstSkipsNothing(s, p, start, lo, hi - 1, q);
    }
  }

  /** Tries `FIRST` at `hi`, `hi - 1`, ..., `lo`: the first `[^>]*` giving back one character at a time. */
  function TryFirst(s: string, p: AttrPattern, start: nat, lo: nat, hi: int): (r: Option<AttrHit>)
    requires lo - 1 <= hi
  {
    var q := LastFirst(s, p, start, lo, hi);
    if q.None? then None else FirstAt(s, p, start, q.value)
  }

  /** What `FirstAt` returns is a match of the pattern. */
  lemma FirstAtSound(s: string, p: AttrPattern, start: nat, q: nat)
    requires StartsAt(s, start, p.open)
    requires start + |p.open| <= q && NoCharIn(s, '>', start + |p.open|, q)
    requires FirstAt(s, p, start, q).Some?
    ensures IsAttrHit(s, p, FirstAt(s, p, start, q).value)
  {
    var f := QuotedEnd(s, q, p.first).value;
    var u := LastSecond(s, p, f + 1, TagBound(s, f + 1)).value;
    assert NoCharIn(s, '>', f + 1, u);
  }

  /** A second half from `from` is reached by `LastSecond` over the greedy reach, or one further right is. */
  lemma LastSecondFinds(s: string, p: AttrPattern, from: nat, u: nat, g: nat, b: nat, e: nat)
    requires SecondHit(s, p, from, u, g, b, e)
    ensures var last := LastSecond(s, p, from, TagBound(s, from));
      last.Some? && u <= last.value
  {
    assert u <= TagBound(s, from);
    SecondAtComplete(s, p, u, g, b, e);
    LastSecondSkipsNothing(s, p, from, TagBound(s, from), u);
  }

  /** `FirstAt` succeeds once `FIRST` is quoted and some `SECOND` is found, and takes the last one. */
  lemma FirstAtFrom(s: string, p: AttrPattern, start: nat, q: nat, f: nat, u: nat)
    requires QuotedEnd(s, q, p.first) == Some(f)
    requires var last := LastSecond(s, p, f + 1, TagBound(s, f + 1));
      last.Some? && u <= last.value
    ensures FirstAt(s, p, start, q).Some? && u <= FirstAt(s, p, start, q).value.secondAt
  {
    var last := LastSecond(s, p, f + 1, TagBound(s, f + 1)).value;
    var (g, b, e) := SecondAt(s, p, last).value;
    assert FirstAt(s, p, start, q) == Some(AttrHit(start, q, f, last, g, b, e));
  }

  /** The `FIRST` of a match lies within the greedy reach of the first `[^>]*`. */
  lemma FirstWithinReach(s: string, p: AttrPattern, m: AttrHit)
    requires IsAttrHit(s, p, m)
    ensures m.firstAt <= TagBound(s, m.start + |p.open|)
  {
  }

  /** Every match `m` is found by `FirstAt` at its own `FIRST`, with a `SECOND` at least as far right. */
  lemma FirstAtComplete(s: string, p: AttrPattern, m: AttrHit)
    requires QuotedAt(s, m.firstAt, p.first, m.firstEnd)
    requires SecondHit(s, p, m.firstEnd + 1, m.secondAt, m.secondEnd, m.bodyStart, m.bodyEnd)
    ensures FirstAt(s, p, m.start, m.firstAt).Some? && m.secondAt <= FirstAt(s, p, m.start, m.firstAt).value.secondAt
  {
    LastSecondFinds(s, p, m.firstEnd + 1, m.secondAt, m.secondEnd, m.bodyStart, m.bodyEnd);
    QuotedEndComplete(s, m.firstAt, p.first, m.firstEnd);
    FirstAtFrom(s, p, m.start, m.firstAt, m.firstEnd, m.secondAt);
  }

  /**
   * When `FirstAt` succeeds at the `FIRST` of a candidate match `m` within the
   * greedy reach from `i`, with a `SECOND` no further left than `m`'s,
   * `TryFirst` returns `m` or a match it prefers.
   */
  lemma TryFirstReaches(s: string, p: AttrPattern, i: nat, m: AttrHit)
    requires i + |p.open| <= |s|
    requires i + |p.open| <= m.firstAt <= TagBound(s, i + |p.open|)
    requires FirstAt(s, p, i, m.firstAt).Some?
    requires m.secondAt <= FirstAt(s, p, i, m.firstAt).value.secondAt
    ensures var r := TryFirst(s, p, i, i + |p.open|, TagBound(s, i + |p.open|));
      r.Some? && Prefers(r.value, m)
  {
    LastFirstSkipsNothing(s, p, i, i + |p.open|, TagBound(s, i + |p.open|), m.firstAt);
  }

  /** What `TryFirst` finds over the greedy reach from `i` is a match at `i`. */
  lemma TryFirstSound(s: string, p: AttrPattern, i: nat)
    requires StartsAt(s, i, p.open)
    requires TryFirst(s, p, i, i + |p.open|, TagBound(s, i + |p.open|)).Some?
    ensures var m := TryFirst(s, p, i, i + |p.open|, TagBound(s, i + |p.open|)).value;
      IsAttrHit(s, p, m) && m.start == i
  {
    var q := LastFirst(s, p, i, i + |p.open|, TagBound(s, i + |p.open|)).value;
    assert NoCharIn(s, '>', i + |p.open|, q);
    FirstAtSound(s, p, i, q);
  }

  /** A match at `i` is found by `TryFirst` over the greedy reach, or one it prefers is. */
  lemma TryFirstPrefers(s: string, p: AttrPattern, i: nat, m: AttrHit)
    requires IsAttrHit(s, p, m) && m.start == i
    ensures var r := TryFirst(s, p, i, i + |p.open|, TagBound(s, i + |p.open|));
      r.Some? && Prefers(r.value, m)
  {
    FirstWithinReach(s, p, m);
    FirstAtComplete(s, p, m);
    TryFirstReaches(s, p, i, m);
  }

  /** Every match at `i` is found by `TryFirst` over the greedy reach, or one it prefers is. */
  lemma TryFirstPrefersAll(s: string, p: AttrPattern, i: nat)
    requires StartsAt(s, i, p.open)
    ensures var r := TryFirst(s, p, i, i + |p.open|, TagBound(s, i + |p.open|));
      forall m | IsAttrHit(s, p, m) && m.start == i :: r.Some? && Prefers(r.value, m)
  {
    forall m | IsAttrHit(s, p, m) && m.start == i
      ensures var r := TryFirst(s, p, i, i + |p.open|, TagBound(s, i + |p.open|));
        r.Some? && Prefers(r.value, m)
    {
      TryFirstPrefers(s, p, i, m);
    }
  }

  function AttrHitAt(s: string, p: AttrPattern, i: nat): (r: Option<AttrHit>)
    ensures r.Some? ==>
      && IsAttrHit(s, p, r.value) && r.value.start == i
      && forall m :: IsAttrHit(s, p, m) && m.start == i ==> Prefers(r.value, m)
    ensures r.None? ==> forall m :: IsAttrHit(s, p, m) ==> m.start != i
  {
    if !StartsAt(s, i, p.open) then None
    else
      var r := TryFirst(s, p, i, i + |p.open|, TagBound(s, i + |p.open|));
      TryFirstPrefersAll(s, p, i);
      if r.Some? then TryFirstSound(s, p, i); r else r
  }

  function SearchAttrFrom(s: string, p: AttrPattern, i: nat): (r: Option<AttrHit>)
    decreases |s| + 1 - i
    ensures r.Some? ==>
      && IsAttrHit(s, p, r.value) && i <= r.value.start
      && forall m :: IsAttrHit(s, p, m) && i <= m.start ==>
           r.value.start < m.start || (r.value.start == m.start && Prefers(r.value, m))
    ensures r.None? ==> forall m :: IsAttrHit(s, p, m) ==> m.start < i
  {
    if i > |s| then None
    else
      match AttrHitAt(s, p, i)
      case Some(m) => Some(m)
      case None => SearchAttrFrom(s, p, i + 1)
  }

  /** `re.search(pattern, s)`: the match Python returns, or None when there is none. */
  function SearchAttr(s: string, p: AttrPattern): (r: Option<AttrHit>)
    ensures r.Some? ==> IsFirstAttrHit(s, p, r.value)
    ensures r.None? <==> NoAttrHit(s, p)
  {
    SearchAttrFrom(s, p, 0)
  }

  /** Group 1 of a match: the value of the first attribute. */
  function FirstValue(s: string, p: AttrPattern, m: AttrHit): (v: string)
    requires IsAttrHit(s, p, m)
    ensures |v| > 0 && '"' !in v
    ensures StartsAt(s, m.firstAt, p.first + v + "\"")
  {
    s[m.firstAt + |p.first|..m.firstEnd]
  }

  /** Group 2 of a match: the value of the second attribute. */
  function SecondValue(s: string, p: AttrPattern, m: AttrHit): (v: string)
    requires IsAttrHit(s, p, m)
    ensures |v| > 0 && '"' !in v
    ensures StartsAt(s, m.secondAt, p.second + v + "\"")
  {
    s[m.secondAt + |p.second|..m.secondEnd]
  }

  /** The lazy body of a match holds no occurrence of its `CLOSE`. */
  lemma BodyHasNoClose(s: string, p: AttrPattern, m: AttrHit)
    requires IsAttrHit(s, p, m) && p.body.Some?
    ensures NoMatchIn(s[m.bodyStart..m.bodyEnd], p.body.value, 0, m.bodyEnd - m.bodyStart)
  {
    var v := s[m.bodyStart..m.bodyEnd];
    forall k: nat | k < |v| ensures !StartsAt(v, k, p.body.value) {
      assert StartsAt(v, k, p.body.value) ==> StartsAt(s, m.bodyStart + k, p.body.value);
    }
  }

  /**
   * Group 3 of a match: the element's body, empty when the pattern has none.
   * The lazy `(.*?)` stops at the first `CLOSE`, so the body holds none.
   */
  function Body(s: string, p: AttrPattern, m: AttrHit): (v: string)
    requires IsAttrHit(s, p, m)
    ensures p.body.None? ==> v == ""
    ensures p.body.Some? ==> NoMatchIn(v, p.body.value, 0, |v|) && StartsAt(s, m.bodyEnd, p.body.value)
    ensures p.body.Some? ==> StartsAt(s, m.bodyStart, v + p.body.value)
  {
    var v := s[m.bodyStart..m.bodyEnd];
    if p.body.Some? then BodyHasNoClose(s, p, m); v else v
  }
}

=== FILE: tags.dfy ===
/**
 * `_strip_tags`: `re.sub(r"<[^>]+>", "", value).strip()`. The substitution
 * scans left to right; where a `<`, at least one non-`>` character and a `>`
 * follow, the whole run up to that first `>` is deleted and the scan resumes
 * after it, otherwise the character is kept.
 */
module Tags {
  import opened Wrappers
  import opened Text

  /** `<[^>]+>` matches `s[i..j + 1]`. */
  ghost predicate TagAt(s: string, i: nat, j: nat) {
    i + 1 < j < |s| && s[i] == '<' && s[j] == '>' && NoCharIn(s, '>', i + 1, j)
  }

  /** No substring of `s` matches `<[^>]+>`. */
  ghost predicate TagFree(s: string) {
    forall i: nat, j: nat :: !TagAt(s, i, j)
  }

  /** Where the tag that starts at `s[i]` ends, if one does. */
  function TagEnd(s: string, i: nat): (r: Option<nat>)
    requires i < |s|
    ensures r.Some? ==> TagAt(s, i, r.value)
    ensures r.None? ==> forall j: nat :: !TagAt(s, i, j)
  {
    if s[i] != '<' then None
    else match FindChar(s, '>', i + 1)
      case Some(j) => if j > i + 1 then Some(j) else None
      case None => None
  }

  /** The substitution `re.sub(r"<[^>]+>", "", ...)` of `_strip_tags`, applied to `s[i..]`. */
  function RemoveTags(s: string, i: nat): (r: string)
    requires i <= |s|
    decreases |s| - i
    ensures |r| <= |s| - i
    ensures i < |s| && s[i] != '<' ==> |r| > 0 && r[0] == s[i]
  {
    if i == |s| then ""
    else match TagEnd(s, i)
      case Some(j) => RemoveTags(s, j + 1)
      case None => [s[i]] + RemoveTags(s, i + 1)
  }

  /** The substitution brings in no `>` that the input lacks. */
  lemma {:induction false} RemoveTagsNoNewClose(s: string, i: nat)
    requires i <= |s|
    requires NoCharIn(s, '>', i, |s|)
    ensures NoCharIn(RemoveTags(s, i), '>', 0, |RemoveTags(s, i)|)
    decreases |s| - i
  {
    if i < |s| {
      if TagEnd(s, i).Some? {
        assert false;
      } else {
        RemoveTagsNoNewClose(s, i + 1);
        RemoveTagsKept(s, i);
        var rest := RemoveTags(s, i + 1);
        assert forall k | 1 <= k < |[s[i]] + rest| :: ([s[i]] + rest)[k] == rest[k - 1];
      }
    }
  }

  /** Where no tag starts at `s[i]`, the character is kept. */
  lemma RemoveTagsKept(s: string, i: nat)
    requires i < |s| && TagEnd(s, i).None?
    ensures RemoveTags(s, i) == [s[i]] + RemoveTags(s, i + 1)
  {
  }

  /** Where a tag starts at `s[i]`, it is deleted up to its `>`: the scan goes on at `n`. */
  lemma RemoveTagsDropped(s: string, i: nat, n: nat)
    requires i < |s| && TagEnd(s, i).Some? && n == TagEnd(s, i).value + 1
    ensures RemoveTags(s, i) == RemoveTags(s, n)
  {
  }

  /** The tag at `s[i..j + 1]` is the one `TagEnd` finds: it closes at the first `>`. */
  lemma TagEndOf(s: string, i: nat, j: nat)
    requires TagAt(s, i, j)
    ensures TagEnd(s, i) == Some(j)
  {
    var f := FindChar(s, '>', i + 1);
    assert f.Some? && f.value <= j;
  }

  /** `TagEnd` inside `b` is unaffected by text `a` put in front, up to the shift by `|a|`. */
  lemma TagEndShift(a: string, b: string, i: nat)
    requires i < |b|
    ensures var r := TagEnd(a + b, |a| + i);
      && (r.None? <==> TagEnd(b, i).None?)
      && (TagEnd(b, i).Some? ==> r.value == |a| + TagEnd(b, i).value)
  {
    assert (a + b)[|a| + i] == b[i];
    FindCharShift(a, b, '>', i + 1);
  }

  /** A character of `b` with no tag at it is kept in `a + b` too; the scan goes on at `n`. */
  lemma ShiftKept(a: string, b: string, i: nat, n: nat)
    requires i < |b| && TagEnd(b, i).None? && n == i + 1
    ensures RemoveTags(a + b, |a| + i) == [b[i]] + RemoveTags(a + b, |a| + n)
  {
    TagEndShift(a, b, i);
    RemoveTagsKept(a + b, |a| + i);
    assert (a + b)[|a| + i] == b[i];
  }

  /** A tag of `b` is deleted in `a + b` too; the scan goes on at `n`, after its `>`. */
  lemma ShiftDropped(a: string, b: string, i: nat, n: nat)
    requires i < |b| && TagEnd(b, i).Some? && n == TagEnd(b, i).value + 1
    ensures RemoveTags(a + b, |a| + i) == RemoveTags(a + b, |a| + n)
  {
    var s := a + b;
    TagEndShift(a, b, i);
    assert TagEnd(s, |a| + i) == Some(|a| + TagEnd(b, i).value);
    RemoveTagsDropped(s, |a| + i, |a| + n);
  }

  /** The substitution on the `b` part of `a + b` is the substitution on `b`. */
  lemma {:induction false} RemoveTagsShift(a: string, b: string, i: nat)
    requires i <= |b|
    ensures RemoveTags(a + b, |a| + i) == RemoveTags(b, i)
    decreases |b| - i
  {
    if i < |b| {
      var e := TagEnd(b, i);
      if e.Some? {
        var n := e.value + 1;
        RemoveTagsShift(a, b, n);
        ShiftDroppedStep(a, b, i, n);
      } else {
        RemoveTagsShift(a, b, i + 1);
        ShiftKeptStep(a, b, i, i + 1);
      }
    }
  }

  /** One dropped tag: the shift from `n` on carries over to the shift from `i` on. */
  lemma ShiftDroppedStep(a: string, b: string, i: nat, n: nat)
    requires i < |b| && TagEnd(b, i).Some? && n == TagEnd(b, i).value + 1
    requires RemoveTags(a + b, |a| + n) == RemoveTags(b, n)
    ensures RemoveTags(a + b, |a| + i) == RemoveTags(b, i)
  {
    ShiftDropped(a, b, i, n);
    RemoveTagsDropped(b, i, n);
  }

  /** One kept character: the shift from `n` on carries over to the shift from `i` on. */
  lemma ShiftKeptStep(a: string, b: string, i: nat, n: nat)
    requires i < |b| && TagEnd(b, i).None? && n == i + 1
    requires RemoveTags(a + b, |a| + n) == RemoveTags(b, n)
    ensures RemoveTags(a + b, |a| + i) == RemoveTags(b, i)
  {
    ShiftKept(a, b, i, n);
    RemoveTagsKept(b, i);
  }

  /** The substitution on `a + b` from the end of `a` on is the substitution on `b`. */
  lemma RemoveTagsShiftTo(a: string, b: string, n: nat)
    requires n == |a|
    ensures RemoveTags(a + b, n) == RemoveTags(b, 0)
  {
    RemoveTagsShift(a, b, 0);
  }

  /** A stretch `s[i..n]` without `<` is kept as it is. */
  lemma {:induction false} RemoveTagsKeep(s: string, i: nat, n: nat)
    requires i <= n <= |s|
    requires forall k | i <= k < n :: s[k] != '<'
    ensures RemoveTags(s, i) == s[i..n] + RemoveTags(s, n)
    decreases n - i
  {
    if i < n {
      assert TagEnd(s, i).None?;
      RemoveTagsKept(s, i);
      RemoveTagsKeep(s, i + 1, n);
      SliceCons(s, i, n);
      AppendAssoc([s[i]], s[i + 1..n], RemoveTags(s, n));
    }
  }

  /** A tag `t` inside `u + t + v` is a tag there too. */
  lemma TagInside(u: string, t: string, v: string)
    requires |t| > 0 && TagAt(t, 0, |t| - 1)
    ensures TagAt(u + t + v, |u|, |u| + |t| - 1)
  {
    var s := u + t + v;
    assert s[|u|] == t[0] && s[|u| + |t| - 1] == t[|t| - 1];
    forall m | |u| + 1 <= m < |u| + |t| - 1 ensures s[m] != '>' {
      assert s[m] == t[m - |u|];
    }
  }

  /** A leading text without `<` is kept as it is. */
  lemma RemoveTagsKeepPrefix(u: string, w: string)
    requires '<' !in u
    ensures RemoveTags(u + w, 0) == u + RemoveTags(u + w, |u|)
  {
    assert forall k | 0 <= k < |u| :: (u + w)[k] == u[k];
    RemoveTagsKeep(u + w, 0, |u|);
    assert (u + w)[0..|u|] == u;
  }

  /**
   * Only tags are deleted: a text `u` without `<` in front of a tag `t` is
   * kept, the tag is dropped, and the substitution goes on after it.
   */
  lemma RemoveTagsSkip(u: string, t: string, v: string)
    requires '<' !in u
    requires |t| > 0 && TagAt(t, 0, |t| - 1)
    ensures RemoveTags(u + t + v, 0) == u + RemoveTags(v, 0)
  {
    var s := u + t + v;
    AppendAssoc(u, t, v);
    RemoveTagsKeepPrefix(u, t + v);
    TagInside(u, t, v);
    TagEndOf(s, |u|, |u| + |t| - 1);
    var n := |u| + |t|;
    RemoveTagsDropped(s, |u|, n);
    RemoveTagsShiftTo(u + t, v, n);
  }

  /** The substitution leaves no tag behind, even where deleting one joins its neighbours. */
  lemma {:induction false} RemoveTagsTagFree(s: string, i: nat)
    requires i <= |s|
    ensures TagFree(RemoveTags(s, i))
    decreases |s| - i
  {
    if i < |s| {
      match TagEnd(s, i)
      case Some(j) => RemoveTagsTagFree(s, j + 1);
      case None =>
        var rest := RemoveTags(s, i + 1);
        var r := [s[i]] + rest;
        RemoveTagsTagFree(s, i + 1);
        // a tag of r after its first character would be a tag of rest
        forall a: nat, b: nat | a > 0 && b > 0 ensures !TagAt(r, a, b) {
          TagAfterHead(s[i], rest, a - 1, b - 1);
        }
        // s[i] itself opens no tag: either no '>' follows it, or one follows at once
        if s[i] == '<' {
          match FindChar(s, '>', i + 1)
          case None =>
            RemoveTagsNoNewClose(s, i + 1);
            assert forall k | 1 <= k < |r| :: r[k] != '>' by {
              forall k | 1 <= k < |r| ensures r[k] != '>' { assert r[k] == rest[k - 1]; }
            }
          case Some(k) =>
            assert r[1] == '>';
        }
    }
  }

  lemma TagAfterHead(c: char, rest: string, a: nat, b: nat)
    ensures TagAt([c] + rest, a + 1, b + 1) ==> TagAt(rest, a, b)
  {
    var r := [c] + rest;
    if TagAt(r, a + 1, b + 1) {
      forall k | a + 1 <= k < b ensures rest[k] != '>' { assert r[k + 1] == rest[k]; }
    }
  }

  /** On a string with no tag the substitution changes nothing. */
  lemma {:induction false} RemoveTagsOfTagFree(s: string, i: nat)
    requires i <= |s|
    requires TagFree(s)
    ensures RemoveTags(s, i) == s[i..]
    decreases |s| - i
  {
    if i < |s| {
      assert TagEnd(s, i).None?;
      RemoveTagsOfTagFree(s, i + 1);
      assert s[i..] == [s[i]] + s[i + 1..];
    }
  }

  /** A string without `<` has no tag to delete. */
  lemma NoOpenIsTagFree(s: string)
    requires '<' !in s
    ensures TagFree(s)
  {
    forall a: nat, b: nat ensures !TagAt(s, a, b) {
    }
  }

  /** Without a `<` the substitution is the identity. */
  lemma RemoveTagsWithoutOpen(s: string)
    ensures '<' !in s ==> RemoveTags(s, 0) == s
  {
    if '<' !in s {
      NoOpenIsTagFree(s);
      RemoveTagsOfTagFree(s, 0);
      assert s[0..] == s;
    }
  }

  /** A piece of a tag-free string is tag-free. */
  lemma TagFreeSlice(s: string, a: nat, b: nat)
    requires a <= b <= |s|
    requires TagFree(s)
    ensures TagFree(s[a..b])
  {
    var t := s[a..b];
    forall i: nat, j: nat ensures !TagAt(t, i, j) {
      if TagAt(t, i, j) {
        assert TagAt(s, a + i, a + j) by {
          forall m | a + i + 1 <= m < a + j ensures s[m] != '>' { assert t[m - a] == s[m]; }
        }
      }
    }
  }

  /**
   * Python's `_strip_tags(value)`: never longer than `value`, stripped of
   * surrounding whitespace, free of tags, and exactly `value.strip()` when
   * `value` has no `<`.
   */
  function StripTags(value: string): (r: string)
    ensures |r| <= |value|
    ensures Trimmed(r)
    ensures TagFree(r)
    ensures '<' !in value ==> r == Trim(value)
  {
    var removed := RemoveTags(value, 0);
    RemoveTagsTagFree(value, 0);
    var r := Trim(removed);
    TagFreeSlice(removed, StripStart(removed), StripStart(removed) + |r|);
    RemoveTagsWithoutOpen(value);
    r
  }

  /**
   * What survives a tag: `<`-free text before a whole tag is kept, the tag is
   * deleted, and the rest is stripped of its own tags; then the whole is trimmed.
   */
  lemma StripTagsSkip(u: string, t: string, v: string)
    requires '<' !in u
    requires |t| > 0 && TagAt(t, 0, |t| - 1)
    ensures StripTags(u + t + v) == Trim(u + RemoveTags(v, 0))
  {
    RemoveTagsSkip(u, t, v);
  }

  /** A closing tag after text is deleted: `x</b>` loses its tag. */
  lemma RemoveCloseExample()
    ensures RemoveTags("x</b>", 0) == "x"
  {
    var close := "</b>";
    assert TagAt(close, 0, 3) by { assert NoCharIn(close, '>', 1, 3); }
    RemoveTagsSkip("x", close, "");
    assert "x" + close + "" == "x</b>";
  }

  /** The text between tags survives: `<b>x</b>` strips to `x`. */
  lemma StripTagsExample()
    ensures StripTags("<b>x</b>") == "x"
  {
    var open := "<b>";
    assert TagAt(open, 0, 2) by { assert NoCharIn(open, '>', 1, 2); }
    RemoveCloseExample();
    StripTagsSkip("", open, "x</b>");
    assert "" + open + "x</b>" == "<b>x</b>";
    assert "" + "x" == "x";
    TrimOfTrimmed("x");
  }

  /** Stripping twice is stripping once. */
  lemma StripTagsIdempotent(value: string)
    ensures StripTags(StripTags(value)) == StripTags(value)
  {
    var r := StripTags(value);
    RemoveTagsOfTagFree(r, 0);
    assert r[0..] == r;
    TrimOfTrimmed(r);
  }
}

=== FILE: text.dfy ===
/**
 * Character classes and string primitives shared by the scanners: Python's
 * notion of whitespace, `str.strip`, fixed-substring search and `str.replace`
 * with an empty replacement.
 */
module Text {
  import opened Wrappers

  /** Python's `str.isspace` for one character (the characters `str.strip()` removes). */
  predicate IsSpace(c: char) {
    var n := c as int;
    || (0x09 <= n <= 0x0D)
    || (0x1C <= n <= 0x20)
    || n == 0x85 || n == 0xA0 || n == 0x1680
    || (0x2000 <= n <= 0x200A)
    || n == 0x2028 || n == 0x2029 || n == 0x202F || n == 0x205F || n == 0x3000
  }

  /** Every character of `s[lo..hi]` is whitespace. */
  predicate SpacesIn(s: string, lo: nat, hi: nat)
    requires lo <= hi <= |s|
  {
    forall i | lo <= i < hi :: IsSpace(s[i])
  }

  predicate AllSpace(s: string) {
    SpacesIn(s, 0, |s|)
  }

  /** True iff `s` neither begins nor ends with whitespace. */
  predicate Trimmed(s: string) {
    |s| == 0 || (!IsSpace(s[0]) && !IsSpace(s[|s| - 1]))
  }

  /** The number of leading whitespace characters of `s[i..]`, plus `i`. */
  function StripStart(s: string, i: nat := 0): (a: nat)
    requires i <= |s|
    decreases |s| - i
    ensures i <= a <= |s| && SpacesIn(s, i, a)
    ensures a < |s| ==> !IsSpace(s[a])
  {
    if i < |s| && IsSpace(s[i]) then StripStart(s, i + 1) else i
  }

  /** The end of `s[lo..e]` once the trailing whitespace before `e` is dropped. */
  function StripEnd(s: string, lo: nat, e: nat): (b: nat)
    requires lo <= e <= |s|
    decreases e
    ensures lo <= b <= e && SpacesIn(s, b, e)
    ensures b > lo ==> !IsSpace(s[b - 1])
  {
    if e > lo && IsSpace(s[e - 1]) then StripEnd(s, lo, e - 1) else e
  }

  /**
   * Python's `str.strip()` with no argument: `s` is whitespace, then the
   * result, then whitespace, and the result neither begins nor ends with it.
   */
  function Trim(s: string): (r: string)
    ensures Trimmed(r)
    ensures |r| <= |s|
    ensures var a := StripStart(s);
            a + |r| <= |s| && r == s[a..a + |r|] && SpacesIn(s, 0, a) && SpacesIn(s, a + |r|, |s|)
  {
    var a := StripStart(s);
    s[a..StripEnd(s, a, |s|)]
  }

  /**
   * `Trim` is the only trimming: whenever `s` is a run of spaces, then `s[a..b]`,
   * then a run of spaces, and `s[a..b]` neither begins nor ends with a space,
   * the strip of `s` is exactly `s[a..b]`.
   */
  lemma TrimExact(s: string, a: nat, b: nat)
    requires a <= b <= |s|
    requires SpacesIn(s, 0, a) && SpacesIn(s, b, |s|)
    requires a < b ==> !IsSpace(s[a]) && !IsSpace(s[b - 1])
    ensures Trim(s) == s[a..b]
  {
    var c := StripStart(s);
    var d := StripEnd(s, c, |s|);
    if a == b {
      assert c == |s|;
      assert d == |s|;
    } else {
      assert c == a;
      assert d == b;
    }
  }

  /** A string that neither begins nor ends with whitespace is its own strip. */
  lemma TrimOfTrimmed(s: string)
    requires Trimmed(s)
    ensures Trim(s) == s
  {
    TrimExact(s, 0, |s|);
  }

  /** `line.strip()` is falsy exactly when every character of `line` is whitespace. */
  lemma BlankIffAllSpace(s: string)
    ensures Trim(s) == "" <==> AllSpace(s)
  {
    if AllSpace(s) {
      TrimExact(s, 0, 0);
    } else {
      var i :| 0 <= i < |s| && !IsSpace(s[i]);
      assert StripStart(s) <= i;
    }
  }

  /** The pieces of `ls` run together, as Python's `"".join(ls)`. */
  function Concat(ls: seq<string>): (r: string) {
    if |ls| == 0 then "" else ls[0] + Concat(ls[1..])
  }

  /**
   * Python's `sep.join(ls)` for a one-character separator: the pieces run
   * together with one `sep` between neighbours.
   */
  function Join(sep: char, ls: seq<string>): (r: string)
    ensures |ls| > 0 ==> |r| == |Concat(ls)| + |ls| - 1
    ensures |ls| > 0 ==> r[..|ls[0]|] == ls[0]
  {
    if |ls| == 0 then ""
    else if |ls| == 1 then ls[0]
    else ls[0] + [sep] + Join(sep, ls[1..])
  }

  /** The pattern `p` occurs in `s` at position `i`. */
  predicate StartsAt(s: string, i: nat, p: string) {
    i + |p| <= |s| && forall k | 0 <= k < |p| :: s[i + k] == p[k]
  }

  /** No character in `s[lo..hi]` (clipped to `s`) equals `c`. */
  predicate NoCharIn(s: string, c: char, lo: nat, hi: int) {
    forall m | lo <= m < hi && m < |s| :: s[m] != c
  }

  /** The pattern `p` does not occur at any position in `[lo, hi)`. */
  predicate NoMatchIn(s: string, p: string, lo: nat, hi: int) {
    forall m: nat | lo <= m < hi :: !StartsAt(s, m, p)
  }

  /** The first index at or after `i` holding `c`, as Python's `str.find(c, i)`. */
  function FindChar(s: string, c: char, i: nat): (r: Option<nat>)
    decreases |s| - i
    ensures r.Some? ==> i <= r.value < |s| && s[r.value] == c && NoCharIn(s, c, i, r.value)
    ensures r.None? ==> NoCharIn(s, c, i, |s|)
  {
    if i >= |s| then None
    else if s[i] == c then Some(i)
    else FindChar(s, c, i + 1)
  }

  /** The first index at or after `i` where `p` occurs, as Python's `str.find(p, i)`. */
  function Find(s: string, p: string, i: nat): (r: Option<nat>)
    decreases |s| - i
    ensures r.Some? ==> i <= r.value && StartsAt(s, r.value, p) && NoMatchIn(s, p, i, r.value)
    ensures r.None? ==> NoMatchIn(s, p, i, |s| + 1)
  {
    if i + |p| > |s| then None
    else if StartsAt(s, i, p) then Some(i)
    else Find(s, p, i + 1)
  }

  /** Python's `s.replace(p, "")`: every leftmost, non-overlapping occurrence of `p` removed. */
  function RemoveAll(s: string, p: string): (r: string)
    requires |p| > 0
    decreases |s|
    ensures |r| <= |s|
    ensures NoMatchIn(s, p, 0, |s|) ==> r == s
  {
    if |s| == 0 then ""
    else if StartsAt(s, 0, p) then RemoveAll(s[|p|..], p)
    else
      assert NoMatchIn(s, p, 0, |s|) ==> NoMatchIn(s[1..], p, 0, |s| - 1) by {
        if NoMatchIn(s, p, 0, |s|) {
          forall m: nat | m < |s| - 1 ensures !StartsAt(s[1..], m, p) {
            assert !StartsAt(s, m + 1, p);
          }
        }
      }
      [s[0]] + RemoveAll(s[1..], p)
  }

  /** `FindChar` on `a + b` from a position inside `b` finds what it finds in `b`, shifted by `|a|`. */
  lemma {:induction false} FindCharShift(a: string, b: string, c: char, i: nat)
    requires i <= |b|
    ensures var r := FindChar(a + b, c, |a| + i);
      && (r.None? <==> FindChar(b, c, i).None?)
      && (FindChar(b, c, i).Some? ==> r.value == |a| + FindChar(b, c, i).value)
    decreases |b| - i
  {
    if i < |b| {
      assert (a + b)[|a| + i] == b[i];
      if b[i] != c {
        FindCharShift(a, b, c, i + 1);
      }
    }
  }

  /** Removing from `p + t` drops the leading `p` and then works on `t`. */
  lemma RemoveAllPrefix(p: string, t: string)
    requires |p| > 0
    ensures RemoveAll(p + t, p) == RemoveAll(t, p)
  {
    assert StartsAt(p + t, 0, p) by { assert (p + t)[0..|p|] == p; }
    assert (p + t)[|p|..] == t;
  }

  lemma AppendAssoc(x: string, y: string, z: string)
    ensures (x + y) + z == x + (y + z)
  {
  }

  /** Dropping the first character of `u + w`, for non-empty `u`, drops it from `u`. */
  lemma DropFirst(u: string, w: string)
    requires |u| > 0
    ensures (u + w)[1..] == u[1..] + w
  {
  }

  /** A non-empty slice is its first character followed by the rest. */
  lemma SliceCons(s: string, i: nat, n: nat)
    requires i < n <= |s|
    ensures s[i..n] == [s[i]] + s[i + 1..n]
  {
  }

  /** Where `p` does not occur at the head, the head character is kept. */
  lemma RemoveAllKeepsHead(s: string, p: string)
    requires |p| > 0 && |s| > 0 && !StartsAt(s, 0, p)
    ensures RemoveAll(s, p) == [s[0]] + RemoveAll(s[1..], p)
  {
  }

  /** An occurrence in `w` is one in `[c] + w`, one position further right. */
  lemma StartsAtCons(c: char, w: string, m: nat, p: string)
    ensures StartsAt(w, m, p) ==> StartsAt([c] + w, m + 1, p)
  {
    if StartsAt(w, m, p) {
      forall k | 0 <= k < |p| ensures ([c] + w)[m + 1 + k] == p[k] {
        assert ([c] + w)[m + 1 + k] == w[m + k];
      }
    }
  }

  /** Dropping the first character of `u` keeps `u + p` free of earlier occurrences. */
  lemma NoMatchInTail(u: string, p: string)
    requires |u| > 0 && NoMatchIn(u + p, p, 0, |u|)
    ensures NoMatchIn(u[1..] + p, p, 0, |u| - 1)
  {
    assert u + p == [u[0]] + (u[1..] + p);
    forall m: nat | m < |u| - 1 ensures !StartsAt(u[1..] + p, m, p) {
      StartsAtCons(u[0], u[1..] + p, m, p);
    }
  }

  /**
   * Only occurrences of `p` are removed: the text `u` before the first
   * occurrence is kept as it is, the occurrence is dropped, and removal goes
   * on after it.
   */
  lemma {:induction false} RemoveAllSkip(u: string, p: string, v: string)
    requires |p| > 0
    requires NoMatchIn(u + p, p, 0, |u|)
    ensures RemoveAll(u + p + v, p) == u + RemoveAll(v, p)
    decreases |u|
  {
    if |u| == 0 {
      assert u + p + v == p + v;
      RemoveAllPrefix(p, v);
    } else {
      NoMatchInTail(u, p);
      RemoveAllSkip(u[1..], p, v);
      RemoveAllSkipStep(u, p, v);
    }
  }

  /** The first character of `u` is kept, and what follows it is removed from as before. */
  lemma RemoveAllSkipStep(u: string, p: string, v: string)
    requires |p| > 0 && |u| > 0
    requires NoMatchIn(u + p, p, 0, |u|)
    requires RemoveAll(u[1..] + p + v, p) == u[1..] + RemoveAll(v, p)
    ensures RemoveAll(u + p + v, p) == u + RemoveAll(v, p)
  {
    var s := u + p + v;
    assert !StartsAt(s, 0, p) by {
      assert !StartsAt(u + p, 0, p);
      assert forall k | 0 <= k < |p| :: s[k] == (u + p)[k];
    }
    RemoveAllKeepsHead(s, p);
    DropFirst(u, p);
    DropFirst(u + p, v);
    SliceCons(u, 0, |u|);
    assert u[0..|u|] == u && u[1..|u|] == u[1..];
    AppendAssoc([u[0]], u[1..], RemoveAll(v, p));
  }
}

=== FILE: update.dfy ===
/**
 * `_extract_section`, `_parse_iso` and `_parse_update_file`: one update log
 * fragment turned into the record the dashboard is built from.
 *
 * Calendar parsing and formatting (`datetime.fromisoformat`, `strftime`) and
 * `html.unescape` are library code; they enter as the functions of a
 * `Library` value. A parsed time is a `DateTime`: its position on the
 * timeline of Python's `datetime`, counted from `datetime.min`, which is what
 * the sort compares, together with its UTC offset, which `strftime` shows.
 */
module UpdateFile {
  import opened Wrappers
  import opened Text
  import opened Tags
  import opened Patterns

  /** A point of the `datetime` timeline; 0 is `datetime.min`, the earliest there is. */
  type Instant = nat

  /** `datetime.min`, the sort key of a record whose time did not parse. */
  const MinInstant: Instant := 0

  /**
   * A `datetime` as `fromisoformat` returns it: the point of the timeline it
   * denotes, and its UTC offset in minutes (`None` for a naive time). Two
   * times at different offsets can denote the same instant, and then compare
   * equal in the sort, yet print differently.
   */
  datatype DateTime = DateTime(instant: Instant, offset: Option<int>)

  /** The library functions the parser calls. */
  datatype Library = Library(
    unescape: string -> string,                  // html.unescape
    fromIsoFormat: string -> Option<DateTime>,   // datetime.fromisoformat; None for ValueError
    strftime: DateTime -> string                 // format "%Y-%m-%d %H:%M %z"
  )

  /** One parsed fragment, with the fields of the dictionary `_parse_update_file` returns. */
  datatype UpdateRecord = UpdateRecord(
    repo: string,
    agent: string,
    status: string,
    timeRaw: string,
    timeDisplay: string,
    summary: string,
    sectionHtml: string,
    sortKey: Instant
  )

  const SectionClose := "</section>"

  /** The text of a section span: `<section`, ..., `</section>`, so nothing for `strip()` to remove. */
  lemma SectionSpanText(html: string, m: Span)
    requires IsSpan(html, SectionSpan, m)
    ensures var span := html[m.start..m.bodyEnd + |SectionClose|];
      && |span| >= |"<section>" + SectionClose|
      && span[..8] == "<section" && span[|span| - 10..] == SectionClose
      && Trim(span) == span
  {
    var span := html[m.start..m.bodyEnd + |SectionClose|];
    assert StartsAt(html, m.start, "<section");
    assert StartsAt(html, m.bodyEnd, SectionClose);
    assert forall k | 0 <= k < |span| :: span[k] == html[m.start + k];
    assert span[..8] == "<section";
    assert span[|span| - 10..] == SectionClose;
    assert span[0] == '<' && span[|span| - 1] == '>';
    TrimOfTrimmed(span);
  }

  /** A section span, stripped: the span itself. */
  function SectionText(html: string, m: Span): (r: string)
    requires IsSpan(html, SectionSpan, m)
    ensures r == html[m.start..m.bodyEnd + |SectionClose|]
    ensures |r| >= |"<section>" + SectionClose|
    ensures r[..8] == "<section" && r[|r| - 10..] == SectionClose
  {
    SectionSpanText(html, m);
    Trim(html[m.start..m.bodyEnd + |SectionClose|])
  }

  /**
   * Python's `_extract_section(html)`: the first section span, or the whole
   * input stripped when there is none. The span begins with `<section`, its
   * opening tag ends at the first `>`, and it ends at the first `</section>`
   * after that tag; being delimited by `<` and `>`, it needs no stripping.
   */
  function ExtractSection(html: string): (r: string)
    ensures NoSpan(html, SectionSpan) ==> r == Trim(html)
    ensures !NoSpan(html, SectionSpan) ==>
      && |r| >= |"<section>" + SectionClose|
      && r[..8] == "<section" && r[|r| - 10..] == SectionClose
    ensures !NoSpan(html, SectionSpan) ==>
      var m := SearchSpan(html, SectionSpan).value;
      IsFirstSpan(html, SectionSpan, m) && r == html[m.start..m.bodyEnd + |SectionClose|]
  {
    var found := SearchSpan(html, SectionSpan);
    if found.None? then Trim(html) else SectionText(html, found.value)
  }

  /**
   * Python's `_parse_iso(ts)`: None for the empty string; otherwise
   * `fromisoformat`, and when that fails on a text ending in `Z`, a second
   * attempt with the `Z` replaced by `+00:00`.
   */
  function ParseIso(lib: Library, ts: string): (r: Option<DateTime>)
    ensures ts == "" ==> r.None?
    ensures ts != "" && lib.fromIsoFormat(ts).Some? ==> r == lib.fromIsoFormat(ts)
    ensures r.Some? ==> r == lib.fromIsoFormat(ts)
                        || (ts[|ts| - 1] == 'Z' && r == lib.fromIsoFormat(ts[..|ts| - 1] + "+00:00"))
    ensures r.None? && ts != "" ==> lib.fromIsoFormat(ts).None?
  {
    if ts == "" then None
    else
      match lib.fromIsoFormat(ts)
      case Some(t) => Some(t)
      case None =>
        if ts[|ts| - 1] == 'Z' then lib.fromIsoFormat(ts[..|ts| - 1] + "+00:00") else None
  }

  /** A time in UTC shorthand that `fromisoformat` rejects is read as the same time at offset `+00:00`. */
  lemma ZuluShorthand(lib: Library, body: string)
    requires lib.fromIsoFormat(body + "Z").None?
    ensures ParseIso(lib, body + "Z") == lib.fromIsoFormat(body + "+00:00")
  {
    var ts := body + "Z";
    assert ts[..|ts| - 1] == body;
  }

  /** The summary of an article body: its first `<h4>` heading, unescaped and without tags, or "". */
  function Summary(lib: Library, body: string): (r: string)
    ensures Trimmed(r) && TagFree(r)
    ensures NoSpan(body, Heading) ==> r == ""
    ensures !NoSpan(body, Heading) ==>
      exists m :: IsFirstSpan(body, Heading, m)
                  && r == StripTags(lib.unescape(body[m.bodyStart..m.bodyEnd]))
  {
    match SearchSpan(body, Heading)
    case Some(m) => StripTags(lib.unescape(body[m.bodyStart..m.bodyEnd]))
    case None => ""
  }

  /**
   * The repository and agent names: the two attribute values of the first
   * section tag that carries both, else the file stem without `updates-` and
   * `"unknown"`.
   */
  function Identity(section: string, stem: string): (r: (string, string))
    ensures NoAttrHit(section, SectionAttrs) ==> r == (RemoveAll(stem, "updates-"), "unknown")
    ensures !NoAttrHit(section, SectionAttrs) ==>
      exists m :: IsFirstAttrHit(section, SectionAttrs, m)
                  && r == (FirstValue(section, SectionAttrs, m), SecondValue(section, SectionAttrs, m))
    ensures r.1 != ""
  {
    match SearchAttr(section, SectionAttrs)
    case Some(m) => (FirstValue(section, SectionAttrs, m), SecondValue(section, SectionAttrs, m))
    case None => (RemoveAll(stem, "updates-"), "unknown")
  }

  /**
   * Status, raw time and summary of the first article of the section: the
   * stripped attribute values and the heading, else `"unknown"`, "" and "".
   */
  function ArticleFields(lib: Library, section: string): (r: (string, string, string))
    ensures NoAttrHit(section, ArticleAttrs) ==> r == ("unknown", "", "")
    ensures !NoAttrHit(section, ArticleAttrs) ==>
      exists m :: IsFirstAttrHit(section, ArticleAttrs, m)
                  && r == (Trim(FirstValue(section, ArticleAttrs, m)),
                           Trim(SecondValue(section, ArticleAttrs, m)),
                           Summary(lib, Body(section, ArticleAttrs, m)))
    ensures Trimmed(r.1) && Trimmed(r.2) && TagFree(r.2)
  {
    match SearchAttr(section, ArticleAttrs)
    case Some(m) =>
      (Trim(FirstValue(section, ArticleAttrs, m)),
       Trim(SecondValue(section, ArticleAttrs, m)),
       Summary(lib, Body(section, ArticleAttrs, m)))
    case None => ("unknown", "", "")
  }

  /**
   * The displayed time and the sort key: the formatted time, with its own
   * offset, and the instant it denotes when the raw text parses, else the raw
   * text itself and `datetime.min`.
   */
  function TimeFields(lib: Library, timeRaw: string): (r: (string, Instant))
    ensures ParseIso(lib, timeRaw).None? ==> r == (timeRaw, MinInstant)
    ensures ParseIso(lib, timeRaw).Some? ==>
      && r.1 == ParseIso(lib, timeRaw).value.instant
      && r.0 == Trim(lib.strftime(ParseIso(lib, timeRaw).value))
  {
    var parsed := ParseIso(lib, timeRaw);
    if parsed.None? then (timeRaw, MinInstant)
    else (Trim(lib.strftime(parsed.value)), parsed.value.instant)
  }

  /**
   * Python's `_parse_update_file`, for a file whose name without extension is
   * `stem` and whose text is `raw`. The status is never empty: an empty
   * stripped `data-status` falls back to `"unknown"` as well.
   */
  function ParseUpdate(lib: Library, stem: string, raw: string): (r: UpdateRecord)
    ensures r.sectionHtml == ExtractSection(raw)
    ensures (r.repo, r.agent) == Identity(r.sectionHtml, stem)
    ensures var article := ArticleFields(lib, r.sectionHtml);
      && r.status == (if article.0 == "" then "unknown" else article.0)
      && r.timeRaw == article.1 && r.summary == article.2
    ensures r.status != "" && r.agent != ""
    ensures NoAttrHit(r.sectionHtml, ArticleAttrs) ==> r.status == "unknown" && r.timeDisplay == r.timeRaw == ""
    ensures ParseIso(lib, r.timeRaw).None? ==> r.timeDisplay == r.timeRaw && r.sortKey == MinInstant
    ensures ParseIso(lib, r.timeRaw).Some? ==>
      && r.sortKey == ParseIso(lib, r.timeRaw).value.instant
      && r.timeDisplay == Trim(lib.strftime(ParseIso(lib, r.timeRaw).value))
  {
    var section := ExtractSection(raw);
    var (repo, agent) := Identity(section, stem);
    var (status, timeRaw, summary) := ArticleFields(lib, section);
    var (timeDisplay, sortKey) := TimeFields(lib, timeRaw);
    UpdateRecord(repo, agent, if status == "" then "unknown" else status,
                 timeRaw, timeDisplay, summary, section, sortKey)
  }

  /**
   * The repository name is not always non-empty: a fragment named
   * `updates-.html` without a usable section tag yields the empty name.
   */
  lemma EmptyRepoName(lib: Library)
    ensures ParseUpdate(lib, "updates-", "").repo == ""
  {
    assert NoSpan("", SectionSpan);
    var r := ParseUpdate(lib, "updates-", "");
    assert r.sectionHtml == "";
    assert NoAttrHit("", SectionAttrs);
    RemoveAllPrefix("updates-", "");
    assert "updates-" + "" == "updates-";
  }
}

=== FILE: wrappers.dfy ===
/** The optional value used wherever a search or a parse may find nothing. */
module Wrappers {
  datatype Option<+T> = None | Some(value: T)
}
